=== FILE: README.md ===
# SyncUtils reconciliation, modelled in Dafny

This project models the reconciliation engine of Metrolist's `SyncUtils`. The engine makes the
local music library mirror the user's remote library for five collections: liked songs, library
songs, liked albums, subscribed artists and saved playlists.

Every pass follows the same shape:

- A re-entrancy flag guards the pass (`Guard`).
- Local members whose id is missing from the remote list have their membership marker toggled
  off. No row is ever deleted.
- Each remote item is taken in reversed remote order. It is either inserted with its marker set,
  has its marker set, or is left alone.

`Reconcile` states this shape once, as a pure step function over a `map<Id, Entity>`. It is
generic in a `Kind`, which fixes the item's id, the entity's marker, the marker toggle, and how a
new row is built. `Collections` instantiates the shape for songs (liked, in the library), albums
and artists. `Playlists` models the saved-playlists pass, which has its own rules:

- the reserved ids "LM" and "SE" are dropped from the remote list before the removal step, so
  a saved row carrying one of them counts as no longer listed and every successful pass
  un-saves it;
- playlists that exist only locally are protected;
- rows are keyed by a local id that is distinct from the remote browse id;
- each listed playlist's content is re-synchronised.

`SongCount` models the digit parse of a playlist's song-count text. `Sync` holds the library, the
five flags, the remote endpoints, the five guarded passes, and `syncAll`.

Module layout:

- `wrappers.dfy`: `Option` and `Result`.
- `types.dfy`: ids and timestamps.
- `seqs.dfy`: reversal and subsequences.
- `items.dfy`: the remote items, `filterIsInstance` and `getRemoteData`.
- `entities.dfy`: the rows and their toggles.
- `reconcile.dfy`: the generic pass.
- `collections.dfy`: the song, album and artist passes.
- `songcount.dfy`: the song-count parse.
- `playlists.dfy`: `syncSavedPlaylists` and `syncPlaylist`.
- `guard.dfy`: the guard.
- `sync.dfy`: the top level.
- `race.dfy`: the two song passes of `syncAll` racing on one song row.

A remote fetch is an input value, `Result<seq<Item>>`. A failed fetch has two different outcomes
in the source, and the model keeps both:

- The library-songs, liked-albums and artists passes read through `getRemoteData`. That function
  turns a failed fetch into an empty list, so those passes un-mark every local member.
- The liked-songs and saved-playlists passes write nothing at all on a failed fetch.

`toggleLibrary` is not part of this model. When it takes a song out of the library, it may or may
not also clear the song's like. The model leaves this open as a parameter, `LibraryExit`
(`KeepsLike` or `ClearsLike`), and proves each property about the song passes under both choices.

`syncPlaylist` is modelled as written. It clears the playlist's membership rows and computes the
new `PlaylistSongMap`s with positions 0..n-1. No statement inserts the computed rows, so a
successful content sync leaves the playlist with no membership rows at all.

## Model

| member | source | states |
|---|---|---|
| Items.Instances | app/src/main/java/com/metrolist/music/utils/SyncUtils.kt:259 | `filterIsInstance`: a value is in the result iff some page item is an instance of that kind carrying it |
| Items.InstancesOne | app/src/main/java/com/metrolist/music/utils/SyncUtils.kt:259 | a one-item page yields its value when the item is of that kind, and nothing otherwise |
| Items.InstancesAppend | app/src/main/java/com/metrolist/music/utils/SyncUtils.kt:193 | `filterIsInstance` distributes over concatenation, so with `InstancesOne` it keeps the page's order and duplicates |
| Items.GetRemoteData | app/src/main/java/com/metrolist/music/utils/SyncUtils.kt:254-266 | a failed fetch yields the empty list; otherwise the result is the page's items of that kind in reversed order |
| Entities.LocalToggleLike | app/src/main/java/com/metrolist/music/utils/SyncUtils.kt:66 | toggling a song's like flips `liked`, sets the like date exactly when the song becomes liked, and keeps the title and library marker |
| Entities.ToggleLibrary | app/src/main/java/com/metrolist/music/utils/SyncUtils.kt:95 | toggling the library marker flips whether the song is in the library and keeps the title; adding keeps the like and like date, and so does removing under `KeepsLike`, while removing under `ClearsLike` leaves the song unliked with no like date |
| Entities.ToggleAlbumLike | app/src/main/java/com/metrolist/music/utils/SyncUtils.kt:123 | toggling an album flips whether it is bookmarked and keeps its title |
| Entities.ToggleArtistLike | app/src/main/java/com/metrolist/music/utils/SyncUtils.kt:157 | toggling an artist flips whether it is bookmarked and keeps its other fields |
| Reconcile.Upsert | app/src/main/java/com/metrolist/music/utils/SyncUtils.kt:71-77 | one item's transaction: nothing is written for a skipped item or a row already marked; otherwise only the item's own row may change; for a lawful kind a write is logged exactly when the store changes and the row ends marked; a re-mark stores the toggle of the known row, and an insert stores the row built from the item |
| Reconcile.UpsertAll | app/src/main/java/com/metrolist/music/utils/SyncUtils.kt:97-109 | the addition phase keeps every key and writes at most once per item |
| Reconcile.UpsertAllKeepsMarked | app/src/main/java/com/metrolist/music/utils/SyncUtils.kt:104 | a row that is already marked is never written by the addition phase |
| Reconcile.Pass | app/src/main/java/com/metrolist/music/utils/SyncUtils.kt:62-80 | a pass keeps every key and writes at most once per item |
| Reconcile.PassKeepsListed | app/src/main/java/com/metrolist/music/utils/SyncUtils.kt:93-104 | a marked member that is still listed is left exactly as it was |
| Reconcile.Unmark | app/src/main/java/com/metrolist/music/utils/SyncUtils.kt:93-95 | the removal step keeps every key, leaves the marked ids that are still listed, and changes no row outside the stale set |
| Reconcile.UpsertAllRows | app/src/main/java/com/metrolist/music/utils/SyncUtils.kt:97-109 | the additions keep every old key, add exactly the absent accepted ids, mark every accepted id, and change no other row |
| Reconcile.UpsertAllWritesOnce | app/src/main/java/com/metrolist/music/utils/SyncUtils.kt:102-105 | each id is written at most once, and only if it was absent or unmarked |
| Reconcile.UpsertAllWritesInOrder | app/src/main/java/com/metrolist/music/utils/SyncUtils.kt:98 | the writes follow the order in which the items are processed |
| Reconcile.UpsertAllWriteSets | app/src/main/java/com/metrolist/music/utils/SyncUtils.kt:103-104 | the inserted ids are exactly the new keys, and the re-marked ids are exactly the unmarked accepted ones |
| Reconcile.UpsertWriteSets | app/src/main/java/com/metrolist/music/utils/SyncUtils.kt:73-75 | one item inserts exactly the new key, and re-marks its id exactly when its known row is unmarked and the item is accepted |
| Reconcile.UpsertAllInserted | app/src/main/java/com/metrolist/music/utils/SyncUtils.kt:103 | the inserts of the addition phase are exactly its new keys |
| Reconcile.UpsertAllRemarked | app/src/main/java/com/metrolist/music/utils/SyncUtils.kt:104 | the re-marks of the addition phase are exactly the known unmarked rows whose id is accepted |
| Reconcile.UpsertAllNoop | app/src/main/java/com/metrolist/music/utils/SyncUtils.kt:104 | items whose rows are all present and marked cause no write |
| Reconcile.UpsertAllNewRows | app/src/main/java/com/metrolist/music/utils/SyncUtils.kt:103 | a new row is the row created from the first accepted item carrying its id |
| Reconcile.PassRows | app/src/main/java/com/metrolist/music/utils/SyncUtils.kt:93-109 | a pass deletes no key; afterwards the marked ids are the old marked ones still listed plus every accepted listed id |
| Reconcile.PassWrites | app/src/main/java/com/metrolist/music/utils/SyncUtils.kt:93-109 | the un-marked ids are the marked ones no longer listed; the writes are distinct, in processing order, and match the inserted and re-marked sets |
| Reconcile.PassIdempotent | app/src/main/java/com/metrolist/music/utils/SyncUtils.kt:104 | a second pass with the same remote list writes nothing and leaves the store as it was |
| Reconcile.PassNewRows | app/src/main/java/com/metrolist/music/utils/SyncUtils.kt:103 | a row the pass inserts is built from the first accepted item carrying its id |
| Reconcile.ReversedPassNewRows | app/src/main/java/com/metrolist/music/utils/SyncUtils.kt:259 | when the items are processed in reverse, a new row comes from the last remote item carrying its id |
| Reconcile.ReversedPass | app/src/main/java/com/metrolist/music/utils/SyncUtils.kt:259 | processing the reversed remote list adds the accepted listed ids, leaves marked exactly the old marked listed ids plus the accepted ones, un-marks those no longer listed, and writes each id at most once, in reversed remote order |
| Collections.SongPassRows | app/src/main/java/com/metrolist/music/utils/SyncUtils.kt:63-80 | a song pass over a reversed page adds exactly the page's new ids and marks exactly the page's ids |
| Collections.SongPassOrder | app/src/main/java/com/metrolist/music/utils/SyncUtils.kt:62 | a song pass writes each id at most once, in reversed page order, and builds a new row from the last page item carrying its id |
| Collections.LikedSongsPass | app/src/main/java/com/metrolist/music/utils/SyncUtils.kt:57-85 | a failed "LM" fetch writes nothing; otherwise no key is lost, the liked ids become exactly the page's ids, and the un-liked ids are the liked ones not on the page |
| Collections.LikedSongsInReverseOrder | app/src/main/java/com/metrolist/music/utils/SyncUtils.kt:62-80 | writes are distinct and in reversed page order; a new song is liked now, out of the library, titled from the last page item with its id |
| Collections.LikedSongsKeepLibrary | app/src/main/java/com/metrolist/music/utils/SyncUtils.kt:66-77 | the liked-songs pass keeps every song's library marker and title, so the set of library songs is unchanged; new songs are not in the library |
| Collections.LikedSongsIdempotent | app/src/main/java/com/metrolist/music/utils/SyncUtils.kt:75 | a second liked-songs pass with the same answer writes nothing and changes nothing |
| Collections.LibrarySongsPass | app/src/main/java/com/metrolist/music/utils/SyncUtils.kt:87-113 | no key is lost; the songs in the library become exactly the section's songs; the removed ones are the library songs not listed |
| Collections.LibrarySongsFetchFailure | app/src/main/java/com/metrolist/music/utils/SyncUtils.kt:91-95 | a failed section fetch takes every song out of the library and inserts nothing |
| Collections.LibrarySongsInReverseOrder | app/src/main/java/com/metrolist/music/utils/SyncUtils.kt:97-105 | writes are distinct and in reversed section order; a new song is in the library since now, not liked |
| Collections.LibrarySongsLikes | app/src/main/java/com/metrolist/music/utils/SyncUtils.kt:95-104 | the library-songs pass keeps every song's title; it keeps the like and like date of every song it does not take out of the library, and of every song under `KeepsLike`; under `ClearsLike` the songs it takes out are left unliked; new songs are not liked |
| Collections.LibrarySongsIdempotent | app/src/main/java/com/metrolist/music/utils/SyncUtils.kt:104 | a second library-songs pass with the same answer writes nothing and changes nothing |
| Collections.LikedAlbumsLawful | app/src/main/java/com/metrolist/music/utils/SyncUtils.kt:129-138 | the album rules toggle the bookmark, build bookmarked new rows, and accept an album iff its page could be read |
| Collections.AlbumPassRows | app/src/main/java/com/metrolist/music/utils/SyncUtils.kt:121-140 | an album pass adds the listed albums whose page was read and marks the old listed ones plus those |
| Collections.LikedAlbumsPass | app/src/main/java/com/metrolist/music/utils/SyncUtils.kt:115-147 | no key is lost; the liked albums become the old liked listed ones plus every listed album with a readable page; the un-liked ones are those not listed |
| Collections.LikedAlbumsConverge | app/src/main/java/com/metrolist/music/utils/SyncUtils.kt:119-140 | when every album page can be read, the liked albums become exactly the listed ones |
| Collections.LikedAlbumsDetailFailure | app/src/main/java/com/metrolist/music/utils/SyncUtils.kt:129 | a listed album whose page fails is neither inserted nor changed |
| Collections.LikedAlbumsFetchFailure | app/src/main/java/com/metrolist/music/utils/SyncUtils.kt:119-123 | a failed section fetch un-likes every album and inserts nothing |
| Collections.LikedAlbumsInReverseOrder | app/src/main/java/com/metrolist/music/utils/SyncUtils.kt:126-138 | writes are distinct and in reversed section order; a new album is bookmarked now with the title from its page |
| Collections.LikedAlbumsIdempotent | app/src/main/java/com/metrolist/music/utils/SyncUtils.kt:137 | a second album pass with the same answers writes nothing and changes nothing |
| Collections.ArtistsLawful | app/src/main/java/com/metrolist/music/utils/SyncUtils.kt:165-177 | the artist rules toggle the bookmark and build bookmarked new rows |
| Collections.ArtistPassRows | app/src/main/java/com/metrolist/music/utils/SyncUtils.kt:155-177 | an artist pass adds exactly the listed new ids and marks exactly the listed ids |
| Collections.ArtistsPass | app/src/main/java/com/metrolist/music/utils/SyncUtils.kt:149-186 | no key is lost; the subscribed artists become exactly the section's artists; the removed ones are those not listed |
| Collections.ArtistsFetchFailure | app/src/main/java/com/metrolist/music/utils/SyncUtils.kt:153-157 | a failed section fetch unsubscribes every artist and inserts nothing |
| Collections.ArtistsInReverseOrder | app/src/main/java/com/metrolist/music/utils/SyncUtils.kt:160-177 | writes are distinct and in reversed section order; a new artist copies the last listed item with its id and is bookmarked now |
| Collections.ArtistsIdempotent | app/src/main/java/com/metrolist/music/utils/SyncUtils.kt:176 | a second artist pass with the same answer writes nothing and changes nothing |
| SongCount.FindDigits | app/src/main/java/com/metrolist/music/utils/SyncUtils.kt:213 | `Regex("\d+").find` answers nothing iff the text has no digit, and otherwise the first maximal digit run |
| SongCount.RemoteSongCount | app/src/main/java/com/metrolist/music/utils/SyncUtils.kt:213 | the count is null for null text, and otherwise the value of the first maximal digit run when that value fits an `Int`, else null |
| SongCount.FirstRunUnique | app/src/main/java/com/metrolist/music/utils/SyncUtils.kt:213 | a text has at most one first maximal digit run |
| SongCount.RemoteSongCountReadsRenderedCount | app/src/main/java/com/metrolist/music/utils/SyncUtils.kt:213 | a count written in decimal after a digit-free prefix, before a suffix that starts with a non-digit, is read back exactly |
| SongCount.GroupedCountReadsLeadingGroup | app/src/main/java/com/metrolist/music/utils/SyncUtils.kt:213 | "1,234 songs" reads as 1, because the comma ends the digit run |
| Playlists.SongMapsFrom | app/src/main/java/com/metrolist/music/utils/SyncUtils.kt:241-247 | `mapIndexed` from a running index: the row at index p carries song p and position start + p, one row per song |
| Playlists.SongMaps | app/src/main/java/com/metrolist/music/utils/SyncUtils.kt:241-247 | the computed membership rows are one per song, in remote order, at positions 0..n-1, all in the given playlist |
| Playlists.SyncPlaylist | app/src/main/java/com/metrolist/music/utils/SyncUtils.kt:232-252 | a failed fetch leaves the memberships as they were; a successful one leaves no row of that playlist and every other row |
| Playlists.WithoutReserved | app/src/main/java/com/metrolist/music/utils/SyncUtils.kt:194 | the remote list keeps exactly the playlists whose id is neither "LM" nor "SE" |
| Playlists.WithoutReservedOne | app/src/main/java/com/metrolist/music/utils/SyncUtils.kt:194 | one playlist is dropped iff its id is "LM" or "SE" |
| Playlists.WithoutReservedAppend | app/src/main/java/com/metrolist/music/utils/SyncUtils.kt:194 | the filter distributes over concatenation, so with `WithoutReservedOne` it keeps the order and duplicates of the unreserved playlists |
| Playlists.PlaylistListElements | app/src/main/java/com/metrolist/music/utils/SyncUtils.kt:193-195 | the list worked through holds exactly the section's unreserved playlists, and its ids are the listed ids |
| Playlists.FindFrom | app/src/main/java/com/metrolist/music/utils/SyncUtils.kt:206 | the lookup answers a snapshot row carrying the browse id, and no lesser id carries it; it answers nothing only when no snapshot row carries it |
| Playlists.RemovalStepSavedIds | app/src/main/java/com/metrolist/music/utils/SyncUtils.kt:196-200 | after the removal step, the saved browse ids are exactly the saved ones that are still listed |
| Playlists.ToggleBookmark | app/src/main/java/com/metrolist/music/utils/SyncUtils.kt:200 | `localToggleLike` on a playlist flips whether it is saved and keeps its browse id and metadata |
| Playlists.Unsave | app/src/main/java/com/metrolist/music/utils/SyncUtils.kt:198-200 | the removal step keeps every row; the stale rows have their saved marker flipped with browse id and metadata kept, and no other row changes |
| Playlists.ContentTransaction | app/src/main/java/com/metrolist/music/utils/SyncUtils.kt:236-248 | after the content transaction, the memberships are exactly the old ones of other playlists, and none of the computed rows is stored |
| Playlists.AddOne | app/src/main/java/com/metrolist/music/utils/SyncUtils.kt:203-222 | one listed playlist: when the snapshot has a row with its browse id, that row is refreshed from the item and the id counter is kept; otherwise a new saved row is inserted under the next id; no other row changes; the content sync targets that local playlist, and a successful one removes exactly its memberships |
| Playlists.AddAll | app/src/main/java/com/metrolist/music/utils/SyncUtils.kt:202-225 | one content sync per listed playlist; no row is deleted, the id counter never goes back, and no membership is added |
| Playlists.SavedPlaylistsPass | app/src/main/java/com/metrolist/music/utils/SyncUtils.kt:188-230 | a failed section fetch writes nothing and syncs no playlist; otherwise one content sync runs per listed playlist |
| Playlists.AddAllRows | app/src/main/java/com/metrolist/music/utils/SyncUtils.kt:203-220 | the additions keep ids fresh and delete nothing; an old row is untouched or is a snapshot row refreshed from a listed playlist; each new row is a listed playlist's saved row |
| Playlists.AddAllCalls | app/src/main/java/com/metrolist/music/utils/SyncUtils.kt:203-222 | the j-th content sync is for the j-th listed playlist, into a saved local playlist carrying its browse id |
| Playlists.AddAllMemberships | app/src/main/java/com/metrolist/music/utils/SyncUtils.kt:222 | the memberships left are exactly those of playlists that no successful content sync cleared |
| Playlists.SavedPlaylistsKeepRows | app/src/main/java/com/metrolist/music/utils/SyncUtils.kt:198-220 | no row is deleted and ids stay fresh; a local-only playlist is left as it was; each new row is the saved row of a listed playlist |
| Playlists.SavedPlaylistsUnsaveStale | app/src/main/java/com/metrolist/music/utils/SyncUtils.kt:198-200 | a saved playlist whose browse id is no longer listed is un-saved and otherwise unchanged |
| Playlists.SavedPlaylistsReserved | app/src/main/java/com/metrolist/music/utils/SyncUtils.kt:194-200 | a row with browse id "LM" or "SE" is never inserted, and its browse id and metadata are never refreshed; a saved row carrying one is un-saved by every successful pass |
| Playlists.SavedPlaylistsConverge | app/src/main/java/com/metrolist/music/utils/SyncUtils.kt:192-222 | after the pass, the saved playlists with a browse id are exactly the listed ones |
| Playlists.SavedPlaylistsSyncCalls | app/src/main/java/com/metrolist/music/utils/SyncUtils.kt:203-222 | each listed playlist gets one content sync, in reversed remote order, into a saved playlist carrying its browse id |
| Playlists.SavedPlaylistsMemberships | app/src/main/java/com/metrolist/music/utils/SyncUtils.kt:192-248 | the membership rows left are those of playlists no successful content sync touched; a failed section fetch leaves them all |
| Guard.Guarded | app/src/main/java/com/metrolist/music/utils/SyncUtils.kt:57-85 | with the flag set, nothing changes; otherwise the body runs while the flag is set, the flag is clear afterwards whether the body returned or threw, and an exception still escapes |
| Guard.ReentrantCallIsNoop | app/src/main/java/com/metrolist/music/utils/SyncUtils.kt:58 | a pass started again from inside itself does nothing |
| Guard.GuardReleased | app/src/main/java/com/metrolist/music/utils/SyncUtils.kt:82-84 | after a guarded call, the next call runs its body |
| Sync.SyncLikedSongs | app/src/main/java/com/metrolist/music/utils/SyncUtils.kt:57-85 | flags end as they began; only songs change and none is lost; a successful "LM" fetch makes the liked songs exactly its songs; a failed one changes nothing |
| Sync.SyncLibrarySongs | app/src/main/java/com/metrolist/music/utils/SyncUtils.kt:87-113 | flags end as they began; only songs change and none is lost; the library songs become the section's songs |
| Sync.SyncLikedAlbums | app/src/main/java/com/metrolist/music/utils/SyncUtils.kt:115-147 | flags end as they began; only albums change and none is lost; the liked albums become the old listed ones plus those with a readable page |
| Sync.SyncArtistsSubscriptions | app/src/main/java/com/metrolist/music/utils/SyncUtils.kt:149-186 | flags end as they began; only artists change and none is lost; the subscriptions become the section's artists |
| Sync.SyncSavedPlaylists | app/src/main/java/com/metrolist/music/utils/SyncUtils.kt:188-230 | flags end as they began; only playlists and memberships change; a failed section fetch changes nothing |
| Sync.SyncAll | app/src/main/java/com/metrolist/music/utils/SyncUtils.kt:47-55 | every flag ends as it began, and no song, album or artist row is lost |
| Sync.LibrarySongsLikedIds | app/src/main/java/com/metrolist/music/utils/SyncUtils.kt:93-104 | the library-songs pass leaves the set of liked songs as it was under `KeepsLike`; under `ClearsLike` the songs it takes out of the library leave the liked set |
| Sync.SyncAllConverges | app/src/main/java/com/metrolist/music/utils/SyncUtils.kt:47-55 | from clear flags, with both direct fetches successful and the passes in launch order: the library songs, albums, artists and saved playlists agree with the remote; the liked songs are those of "LM", less, under `ClearsLike`, the songs the library pass took out |
| Sync.SyncAllWhileSyncing | app/src/main/java/com/metrolist/music/utils/SyncUtils.kt:58 | while every flag is set, `syncAll` changes nothing |
| SongRace.SerialIsAtomic | app/src/main/java/com/metrolist/music/utils/SyncUtils.kt:64-75 | for every row and any two tasks, running them one after the other, each reading just before it writes, leaves the same row as the atomic update `RunAtomic` |
| SongRace.RunAsWritten | app/src/main/java/com/metrolist/music/utils/SyncUtils.kt:47-55 | a schedule of reads alone leaves the row unchanged |
| SongRace.LostUpdate | app/src/main/java/com/metrolist/music/utils/SyncUtils.kt:64-66 | when both passes read a song row before either writes it, the row ends as the second pass alone would leave it |
| SongRace.LikeLostToLibraryWrite | app/src/main/java/com/metrolist/music/utils/SyncUtils.kt:93-95 | for a song neither liked nor in the library, listed on "LM" and in the library section, the passes one after the other leave it liked and in the library; with both reads first it ends in the library but not liked |
| SongRace.RunAtomic | app/src/main/java/com/metrolist/music/utils/SyncUtils.kt:100-104 | atomic toggles keep the title, keep the library marker when no library pass runs, and keep the like when no like pass runs under `KeepsLike` |
| SongRace.AtomicKeepsBothUpdates | app/src/main/java/com/metrolist/music/utils/SyncUtils.kt:47-55 | for a song outside the library, or under `KeepsLike`, atomic toggles give the same row in both orders of the two passes, with both the like and the library marker flipped |

## Left out

- Coroutines are not modelled: `coroutineScope`, `launch(Dispatchers.IO)`, `async`/`await` and
  `synchronized`. The source runs the per-item tasks of a pass concurrently and `syncAll`'s five
  passes side by side. The model processes the items one after the other, in reversed order, and
  runs the five passes one after the other in launch order. Each toggle is applied to the row as it
  stands at that moment. Only `SongRace` models an interleaving.
- Reconcile.ReversedPassNewRows: the promise that a new row comes from the last remote item with
  its id holds only for this sequential order. When a page lists an id twice, both of its tasks
  can read "no row" and both insert, and which title survives depends on the race.
- Reconcile.UpsertAllWritesOnce: "at most one write per id" holds only for the sequential order.
  Concurrent tasks for a duplicated id can each write the row.
- Sync.SyncAllConverges: holds only when the passes run one after the other in launch order. The
  liked-songs and library-songs passes run concurrently and write whole song rows, so one can
  undo the other's marker (`SongRace.LostUpdate`, under Findings).
- The network (`YouTube.library`, `YouTube.playlist`, `YouTube.album`) and
  `completedLibraryPage` pagination are not modelled. Their answers are inputs: a `Result` per
  section or playlist, and an `Option` per album page.
- Room and Flow internals (`first()`, `firstOrNull()`, `transaction`) are not modelled. Reads and
  writes act atomically on maps.
- `LocalDateTime.now()` is a timestamp parameter. One value serves a whole pass.
- Three primitives are assumed, not derived: their definitions state what the call is taken to
  do, and their contracts only restate that.
  - Playlists.Saved: `playlistsByNameAsc().first()` is taken to list exactly the saved rows.
  - Playlists.ClearPlaylist: `clearPlaylist` is taken to delete exactly the playlist's
    membership rows.
  - Guard.CompareAndSet: `MutableStateFlow.compareAndSet(false, true)` is taken as an atomic
    test-and-set.
- The entity classes and the DAO are not part of this model, so their behaviour is an assumption:
  - each `toggle…`/`localToggleLike` flips only its own marker, except that `toggleLibrary`
    taking a song out of the library may also clear its like (`LibraryExit`);
  - `songsByNameAsc` lists the songs in the library, and `playlistsByNameAsc` lists the saved
    (bookmarked) playlists;
  - `toMediaMetadata` keeps the song id and title;
  - `insert(MediaMetadata)` writes the song row. It may also write artist rows and song-artist
    links for the artists the metadata carries; those rows are not modelled.
- Album rows: `AlbumItem.id` is its `browseId`. The insert of an album page, then its re-lookup
  and toggle, is one step that builds a bookmarked album titled from the page. The page's songs
  and artists are not modelled.
- Sync.SyncLikedSongs and Sync.SyncLibrarySongs: "only songs change" is a frame over the modelled
  collections. Any artist rows and song-artist links that `insert(MediaMetadata)` writes for a
  new song are left out. They carry no library marker, so the marker results are unaffected.
- Sync.SyncLikedAlbums: "only albums change" is a frame over the modelled collections.
  `insert(albumPage)` also stores the page's songs and artists, and those rows are left out. They
  are taken to enter unmarked (not liked, not in the library, not subscribed), so the marker
  results are unaffected.
- New playlists get their local id from a counter instead of a random id, so `Valid` stands for
  "generated ids are fresh".
- Entities.ToggleLibrary: whether taking a song out of the library also clears its like is a
  parameter, `LibraryExit`. The properties that keep likes, namely `Collections.LibrarySongsLikes`,
  `Sync.LibrarySongsLikedIds` and `Sync.SyncAllConverges`, promise the likes are kept only under
  `KeepsLike`, and state what is lost under `ClearsLike`.
- Playlists.FindFrom: answers the least local id carrying the browse id, where the source takes
  the first in name order. This differs only when two saved rows carry the same browse id.
- Playlists.AddOne: `update(playlistEntity, playlist)` is taken to copy the same fields a new
  row gets, with the same song-count parse, keeping the row's browse id and bookmark.
- Playlists.SyncPlaylist: the content sync launched per playlist is a step of the pass. Its
  failure to store the computed rows is kept, as written.
- Guard.Guarded: the pass bodies in `Sync` always return normally. Database exceptions are not
  modelled inside the passes; the guard itself is proved for bodies that throw.
- SongCount.RemoteSongCount: digits are the ASCII digits `0`-`9`. On Android's ICU-based regex
  engine `\d` may also match other Unicode decimal digits, which `toIntOrNull` reads too; those
  are not modelled.
- Collections.LikedAlbumsPass: the convergence to exactly the listed albums holds only when every
  album page can be read (`LikedAlbumsConverge`). A listed album whose page fails is skipped, as
  in the source.
- `OnlinePlaylistViewModel` is a UI view model that fetches and publishes. It has no
  reconciliation logic.

## Findings

| source | as written | input that shows it | evidently intended | confidence | as-written member | corrected member |
|---|---|---|---|---|---|---|
| app/src/main/java/com/metrolist/music/utils/SyncUtils.kt:47-55 | `syncAll` launches the liked-songs and library-songs passes side by side. Each writes back a whole song row it read earlier (lines 64-66 and 71-75 against 93-95 and 100-104), so the later write restores the marker the earlier one changed | a song neither liked nor in the library, listed on "LM" and in the library section, with both passes reading its row before either writes: it ends in the library but not liked | both markers are applied: the song ends liked and in the library | not executed | SongRace.LostUpdate, SongRace.LikeLostToLibraryWrite | SongRace.RunAtomic, SongRace.AtomicKeepsBothUpdates |

The rest of the model applies each toggle to the row as it stands, which is the corrected
behaviour.

=== FILE: collections.dfy ===
/**
 * The four passes that share the diff-and-upsert algorithm: liked songs, library songs, liked
 * albums and subscribed artists. Each is the generic pass of `Reconcile` instantiated with the
 * collection's marker, toggle and insert, fed with the remote list in processing order (the
 * reversed remote order).
 */
module Collections {
  import opened Wrappers
  import opened Types
  import opened Seqs
  import opened Items
  import opened Entities
  import opened Reconcile

  // =============================================================================================
  // Songs: two collections, two independent markers on the same rows

  function SongId(i: SongItem): Id { i.id }

  /** `toMediaMetadata()` turned into a song row: no marker set yet. */
  function NewSong(i: SongItem): Song
  {
    Song(i.title, false, None, None)
  }

  function IsLiked(s: Song): bool { s.liked }

  function IsInLibrary(s: Song): bool { s.inLibrary.Some? }

  /** Liked songs: the marker is `liked`; a new row is inserted through `localToggleLike`. */
  function LikedSongs(): Kind<SongItem, Song>
  {
    Kind(SongId, IsLiked, LocalToggleLike, (i: SongItem, t: Timestamp) => Some(LocalToggleLike(NewSong(i), t)))
  }

  /**
   * Library songs: the marker is `inLibrary`; a new row is inserted through `toggleLibrary`;
   * `exit` is what taking a song out of the library does to its like.
   */
  function LibrarySongs(exit: LibraryExit): Kind<SongItem, Song>
  {
    Kind(SongId, IsInLibrary, (s: Song, t: Timestamp) => ToggleLibrary(s, exit, t),
      (i: SongItem, t: Timestamp) => Some(ToggleLibrary(NewSong(i), exit, t)))
  }

  lemma LikedSongsLawful()
    ensures Lawful(LikedSongs())
  {
  }

  lemma LibrarySongsLawful(exit: LibraryExit)
    ensures Lawful(LibrarySongs(exit))
  {
  }

  /** The ids of the liked songs. */
  function LikedIds(songs: map<Id, Song>): set<Id>
  {
    set id | id in songs && songs[id].liked
  }

  /** The ids of the songs in the library. */
  function LibraryIds(songs: map<Id, Song>): set<Id>
  {
    set id | id in songs && songs[id].inLibrary.Some?
  }

  /** The ids of a list of remote songs. */
  function SongIds(items: seq<SongItem>): set<Id>
  {
    set j | 0 <= j < |items| :: items[j].id
  }

  /** The songs of a fetched library section, in page order (none when the fetch failed). */
  function RemoteSongs(fetched: Result<seq<LibraryItem>>): seq<SongItem>
  {
    SectionItems(fetched, SongOf)
  }

  /** The generic views of a song page are its song ids; every song is accepted. */
  lemma SongViews(k: Kind<SongItem, Song>, page: seq<SongItem>)
    requires k.idOf == SongId
    requires forall i: SongItem :: Accepts(k, i)
    ensures IdSet(k, page) == SongIds(page)
    ensures AcceptedIds(k, page) == SongIds(page)
  {
    forall id | id in SongIds(page) ensures id in AcceptedIds(k, page) {
      var j :| 0 <= j < |page| && page[j].id == id;
      assert Accepts(k, page[j]);
    }
  }

  /**
   * A pass of either song collection over a reversed page: rows are kept, the only new rows are
   * the remote ids, the members become exactly the remote ids, and the stale ones are un-marked.
   */
  lemma SongPassRows(k: Kind<SongItem, Song>, songs: map<Id, Song>, page: seq<SongItem>, now: Timestamp)
    requires Lawful(k)
    requires k.idOf == SongId
    requires forall i: SongItem :: Accepts(k, i)
    ensures Pass(k, songs, Reverse(page), now).store.Keys == songs.Keys + SongIds(page)
    ensures MarkedIds(k, Pass(k, songs, Reverse(page), now).store) == SongIds(page)
    ensures Pass(k, songs, Reverse(page), now).unmarked == MarkedIds(k, songs) - SongIds(page)
  {
    SongViews(k, page);
    ReversedPass(k, songs, page, now);
  }

  /**
   * A pass of either song collection over a reversed page writes each id at most once, in
   * reversed remote order, and a new row is built from the last remote song with its id.
   */
  lemma SongPassOrder(k: Kind<SongItem, Song>, songs: map<Id, Song>, page: seq<SongItem>, now: Timestamp)
    requires Lawful(k)
    requires k.idOf == SongId
    requires forall i: SongItem :: Accepts(k, i)
    ensures Distinct(WriteIds(Pass(k, songs, Reverse(page), now).writes))
    ensures IsSubseq(WriteIds(Pass(k, songs, Reverse(page), now).writes), Reverse(Ids(k, page)))
    ensures forall id :: id in Pass(k, songs, Reverse(page), now).store && id !in songs ==>
      exists j :: LastWith(LikedSongs(), page, id, j) && k.create(page[j], now) == Some(Pass(k, songs, Reverse(page), now).store[id])
  {
    SongViews(k, page);
    ReversedPass(k, songs, page, now);
    ReversedPassNewRows(k, songs, page, now);
    var r := Pass(k, songs, Reverse(page), now).store;
    forall id | id in r && id !in songs
      ensures exists j :: LastWith(LikedSongs(), page, id, j) && k.create(page[j], now) == Some(r[id])
    {
      var j :| LastWith(k, page, id, j) && k.create(page[j], now) == Some(r[id]);
      assert LastWith(LikedSongs(), page, id, j);
    }
  }

  // ---------------------------------------------------------------------------------------------
  // Liked songs

  /**
   * `syncLikedSongs` inside its guard. A failed fetch of the liked-songs playlist writes nothing.
   * A successful one keeps every row, inserts the unknown remote songs, and makes the liked ids
   * exactly the remote ids, toggling off exactly the stale likes.
   */
  function LikedSongsPass(songs: map<Id, Song>, fetched: Result<seq<SongItem>>, now: Timestamp): (r: PassResult<Song>)
    ensures fetched.Failure? ==> r == Untouched(songs)
    ensures fetched.Success? ==> r.store.Keys == songs.Keys + SongIds(fetched.value)
    ensures fetched.Success? ==> LikedIds(r.store) == SongIds(fetched.value)
    ensures fetched.Success? ==> r.unmarked == LikedIds(songs) - SongIds(fetched.value)
  {
    match fetched
    case Failure => Untouched(songs)
    case Success(page) =>
      LikedSongsLawful();
      SongPassRows(LikedSongs(), songs, page, now);
      Pass(LikedSongs(), songs, Reverse(page), now)
  }

  /**
   * Liked songs are handled in reverse remote order: each id is written at most once, the writes
   * follow the reversed remote id list, and a new row is the last remote song with its id,
   * liked now and not in the library.
   */
  lemma LikedSongsInReverseOrder(songs: map<Id, Song>, page: seq<SongItem>, now: Timestamp)
    ensures Distinct(WriteIds(LikedSongsPass(songs, Success(page), now).writes))
    ensures IsSubseq(WriteIds(LikedSongsPass(songs, Success(page), now).writes), Reverse(Ids(LikedSongs(), page)))
    ensures forall id :: id in LikedSongsPass(songs, Success(page), now).store && id !in songs ==>
      exists j :: LastWith(LikedSongs(), page, id, j)
        && LikedSongsPass(songs, Success(page), now).store[id] == Song(page[j].title, true, Some(now), None)
  {
    LikedSongsLawful();
    SongPassOrder(LikedSongs(), songs, page, now);
  }

  /**
   * The liked-songs pass never touches a song's library marker or title; new rows are not in the
   * library, so the songs in the library stay the same.
   */
  lemma LikedSongsKeepLibrary(songs: map<Id, Song>, fetched: Result<seq<SongItem>>, now: Timestamp)
    ensures forall id :: id in songs ==>
      LikedSongsPass(songs, fetched, now).store[id].inLibrary == songs[id].inLibrary
      && LikedSongsPass(songs, fetched, now).store[id].title == songs[id].title
    ensures forall id :: id in LikedSongsPass(songs, fetched, now).store && id !in songs ==>
      LikedSongsPass(songs, fetched, now).store[id].inLibrary.None?
    ensures LibraryIds(LikedSongsPass(songs, fetched, now).store) == LibraryIds(songs)
  {
    if fetched.Success? {
      var k := LikedSongs();
      var xs := Reverse(fetched.value);
      var p := Pass(k, songs, xs, now).store;
      assert LikedSongsPass(songs, fetched, now).store == p;
      LikedSongsLawful();
      PassRowShapes(k, songs, xs, now);
    }
  }

  /** A second liked-songs pass with the same remote answer writes nothing. */
  lemma LikedSongsIdempotent(songs: map<Id, Song>, fetched: Result<seq<SongItem>>, now: Timestamp, later: Timestamp)
    ensures LikedSongsPass(LikedSongsPass(songs, fetched, now).store, fetched, later)
         == Untouched(LikedSongsPass(songs, fetched, now).store)
  {
    if fetched.Success? {
      LikedSongsLawful();
      PassIdempotent(LikedSongs(), songs, Reverse(fetched.value), now, later);
    }
  }

  // ---------------------------------------------------------------------------------------------
  // Library songs

  /**
   * `syncLibrarySongs` inside its guard. The remote list comes from `getRemoteData`, which turns
   * a failed fetch into an empty list, so the pass always runs: every row is kept, the unknown
   * remote songs are inserted, and the library ids become exactly the remote song ids.
   */
  function LibrarySongsPass(songs: map<Id, Song>, fetched: Result<seq<LibraryItem>>, exit: LibraryExit, now: Timestamp): (r: PassResult<Song>)
    ensures r.store.Keys == songs.Keys + SongIds(RemoteSongs(fetched))
    ensures LibraryIds(r.store) == SongIds(RemoteSongs(fetched))
    ensures r.unmarked == LibraryIds(songs) - SongIds(RemoteSongs(fetched))
  {
    LibrarySongsLawful(exit);
    SongPassRows(LibrarySongs(exit), songs, RemoteSongs(fetched), now);
    Pass(LibrarySongs(exit), songs, GetRemoteData(fetched, SongOf), now)
  }

  /**
   * A failed fetch of the library section takes every song out of the library: nothing is
   * inserted, nothing else is written, and no row is deleted.
   */
  lemma LibrarySongsFetchFailure(songs: map<Id, Song>, exit: LibraryExit, now: Timestamp)
    ensures LibrarySongsPass(songs, Failure, exit, now).store.Keys == songs.Keys
    ensures LibraryIds(LibrarySongsPass(songs, Failure, exit, now).store) == {}
    ensures LibrarySongsPass(songs, Failure, exit, now).unmarked == LibraryIds(songs)
    ensures LibrarySongsPass(songs, Failure, exit, now).writes == []
  {
  }

  /**
   * Library songs are handled in reverse page order: each id is written at most once, the writes
   * follow the reversed remote id list, and a new row is the last remote song with its id, in
   * the library since now and not liked.
   */
  lemma LibrarySongsInReverseOrder(songs: map<Id, Song>, fetched: Result<seq<LibraryItem>>, exit: LibraryExit, now: Timestamp)
    ensures Distinct(WriteIds(LibrarySongsPass(songs, fetched, exit, now).writes))
    ensures IsSubseq(WriteIds(LibrarySongsPass(songs, fetched, exit, now).writes), Reverse(Ids(LibrarySongs(exit), RemoteSongs(fetched))))
    ensures forall id :: id in LibrarySongsPass(songs, fetched, exit, now).store && id !in songs ==>
      exists j :: LastWith(LikedSongs(), RemoteSongs(fetched), id, j)
        && LibrarySongsPass(songs, fetched, exit, now).store[id] == Song(RemoteSongs(fetched)[j].title, false, None, Some(now))
  {
    LibrarySongsLawful(exit);
    SongPassOrder(LibrarySongs(exit), songs, RemoteSongs(fetched), now);
  }

  /**
   * The library-songs pass keeps every song's title. A song it takes out of the library (one in
   * the library but not listed) keeps its like when `toggleLibrary` keeps likes, and loses the
   * like and its date when `toggleLibrary` clears them; every other song keeps its like and date.
   * New rows are not liked.
   */
  lemma LibrarySongsLikes(songs: map<Id, Song>, fetched: Result<seq<LibraryItem>>, exit: LibraryExit, now: Timestamp)
    ensures forall id :: id in songs ==> LibrarySongsPass(songs, fetched, exit, now).store[id].title == songs[id].title
    ensures forall id :: id in songs && !(exit == ClearsLike && id in LibraryIds(songs) - SongIds(RemoteSongs(fetched))) ==>
      LibrarySongsPass(songs, fetched, exit, now).store[id].liked == songs[id].liked
      && LibrarySongsPass(songs, fetched, exit, now).store[id].likedDate == songs[id].likedDate
    ensures forall id :: id in songs && exit == ClearsLike && id in LibraryIds(songs) - SongIds(RemoteSongs(fetched)) ==>
      !LibrarySongsPass(songs, fetched, exit, now).store[id].liked
      && LibrarySongsPass(songs, fetched, exit, now).store[id].likedDate.None?
    ensures forall id :: id in LibrarySongsPass(songs, fetched, exit, now).store && id !in songs ==>
      !LibrarySongsPass(songs, fetched, exit, now).store[id].liked
  {
    var p := LibrarySongsPass(songs, fetched, exit, now).store;
    assert p == Pass(LibrarySongs(exit), songs, GetRemoteData(fetched, SongOf), now).store;
    LibraryPassShape(songs, GetRemoteData(fetched, SongOf), exit, now, p);
    LibraryLikes(songs, p, SongIds(RemoteSongs(fetched)), exit, now);
  }

  /** The library pass `p` keeps each old row or toggles it once, and its new rows are not liked. */
  lemma LibraryPassShape(songs: map<Id, Song>, xs: seq<SongItem>, exit: LibraryExit, now: Timestamp, p: map<Id, Song>)
    requires p == Pass(LibrarySongs(exit), songs, xs, now).store
    ensures forall id :: id in songs ==> id in p && (p[id] == songs[id] || p[id] == ToggleLibrary(songs[id], exit, now))
    ensures forall id :: id in p && id !in songs ==> !p[id].liked
  {
    var k := LibrarySongs(exit);
    var q := Pass(k, songs, xs, now).store;
    LibrarySongsLawful(exit);
    PassRowShapes(k, songs, xs, now);
    forall id | id in songs ensures id in p && (p[id] == songs[id] || p[id] == ToggleLibrary(songs[id], exit, now)) {
      assert k.toggle(songs[id], now) == ToggleLibrary(songs[id], exit, now);
    }
    forall id | id in p && id !in songs ensures !p[id].liked {
      var j :| 0 <= j < |xs| && k.create(xs[j], now) == Some(q[id]);
      assert q[id] == ToggleLibrary(NewSong(xs[j]), exit, now);
    }
  }

  /**
   * The likes after a library pass, from its shape: every old row kept or toggled once, and the
   * songs in the library afterwards being the listed ones.
   */
  lemma LibraryLikes(songs: map<Id, Song>, p: map<Id, Song>, listed: set<Id>, exit: LibraryExit, now: Timestamp)
    requires forall id :: id in songs ==> id in p && (p[id] == songs[id] || p[id] == ToggleLibrary(songs[id], exit, now))
    requires LibraryIds(p) == listed
    ensures forall id :: id in songs ==> p[id].title == songs[id].title
    ensures forall id :: id in songs && !(exit == ClearsLike && id in LibraryIds(songs) - listed) ==>
      p[id].liked == songs[id].liked && p[id].likedDate == songs[id].likedDate
    ensures forall id :: id in songs && exit == ClearsLike && id in LibraryIds(songs) - listed ==>
      !p[id].liked && p[id].likedDate.None?
  {
    forall id | id in songs
      ensures p[id].title == songs[id].title
      ensures !(exit == ClearsLike && id in LibraryIds(songs) - listed) ==>
        p[id].liked == songs[id].liked && p[id].likedDate == songs[id].likedDate
      ensures exit == ClearsLike && id in LibraryIds(songs) - listed ==> !p[id].liked && p[id].likedDate.None?
    {
      assert id in LibraryIds(p) <==> p[id].inLibrary.Some?;
      LibraryRow(songs[id], p[id], exit, now);
    }
  }

  /** A song row the library pass kept or toggled once, told by whether it left the library. */
  lemma LibraryRow(s: Song, r: Song, exit: LibraryExit, now: Timestamp)
    requires r == s || r == ToggleLibrary(s, exit, now)
    ensures r.title == s.title
    ensures !(exit == ClearsLike && s.inLibrary.Some? && r.inLibrary.None?) ==> r.liked == s.liked && r.likedDate == s.likedDate
    ensures exit == ClearsLike && s.inLibrary.Some? && r.inLibrary.None? ==> !r.liked && r.likedDate.None?
  {
  }

  /** A second library-songs pass with the same remote answer writes nothing. */
  lemma LibrarySongsIdempotent(songs: map<Id, Song>, fetched: Result<seq<LibraryItem>>, exit: LibraryExit, now: Timestamp, later: Timestamp)
    ensures LibrarySongsPass(LibrarySongsPass(songs, fetched, exit, now).store, fetched, exit, later)
         == Untouched(LibrarySongsPass(songs, fetched, exit, now).store)
  {
    LibrarySongsLawful(exit);
    PassIdempotent(LibrarySongs(exit), songs, GetRemoteData(fetched, SongOf), now, later);
  }

  // =============================================================================================
  // Liked albums

  function AlbumId(i: AlbumItem): Id { i.browseId }

  function IsBookmarked(a: Album): bool { a.bookmarkedAt.Some? }

  /** The album row `insert(albumPage)` stores: built from the detail, not yet liked. */
  function NewAlbum(d: AlbumDetail): Album
  {
    Album(d.title, None)
  }

  /**
   * Liked albums: the marker is `bookmarkedAt`. Every remote album needs its detail page; when
   * that fetch fails the album is skipped altogether, known or not. An unknown album is inserted
   * from its detail and then liked through `localToggleLike`.
   */
  function LikedAlbums(detail: Id -> Option<AlbumDetail>): Kind<AlbumItem, Album>
  {
    Kind(AlbumId, IsBookmarked, ToggleAlbumLike,
      (i: AlbumItem, t: Timestamp) =>
        if detail(i.browseId).Some? then Some(ToggleAlbumLike(NewAlbum(detail(i.browseId).value), t)) else None)
  }

  lemma LikedAlbumsLawful(detail: Id -> Option<AlbumDetail>)
    ensures Lawful(LikedAlbums(detail))
  {
    var k := LikedAlbums(detail);
    forall i, t | k.create(i, t).Some? ensures k.marked(k.create(i, t).value) {
      assert k.create(i, t) == Some(ToggleAlbumLike(NewAlbum(detail(i.browseId).value), t));
    }
  }

  /** The ids of the liked albums. */
  function LikedAlbumIds(albums: map<Id, Album>): set<Id>
  {
    set id | id in albums && albums[id].bookmarkedAt.Some?
  }

  /** The ids of a list of remote albums. */
  function AlbumIds(items: seq<AlbumItem>): set<Id>
  {
    set j | 0 <= j < |items| :: items[j].browseId
  }

  /** The ids of the remote albums whose detail page could be fetched. */
  function DetailedIds(items: seq<AlbumItem>, detail: Id -> Option<AlbumDetail>): (ids: set<Id>)
    ensures ids <= AlbumIds(items)
  {
    set j | 0 <= j < |items| && detail(items[j].browseId).Some? :: items[j].browseId
  }

  /** The albums of a fetched library section, in page order (none when the fetch failed). */
  function RemoteAlbums(fetched: Result<seq<LibraryItem>>): seq<AlbumItem>
  {
    SectionItems(fetched, AlbumOf)
  }

  /** The generic views of an album list are its album ids and its detailed ids. */
  lemma AlbumViews(detail: Id -> Option<AlbumDetail>, items: seq<AlbumItem>)
    ensures IdSet(LikedAlbums(detail), items) == AlbumIds(items)
    ensures AcceptedIds(LikedAlbums(detail), items) == DetailedIds(items, detail)
  {
  }

  /** The rows of an album pass over a reversed list, in album terms. */
  lemma AlbumPassRows(detail: Id -> Option<AlbumDetail>, albums: map<Id, Album>, xs: seq<AlbumItem>, now: Timestamp)
    ensures Pass(LikedAlbums(detail), albums, Reverse(xs), now).store.Keys == albums.Keys + DetailedIds(xs, detail)
    ensures LikedAlbumIds(Pass(LikedAlbums(detail), albums, Reverse(xs), now).store)
         == (LikedAlbumIds(albums) * AlbumIds(xs)) + DetailedIds(xs, detail)
    ensures Pass(LikedAlbums(detail), albums, Reverse(xs), now).unmarked == LikedAlbumIds(albums) - AlbumIds(xs)
  {
    var k := LikedAlbums(detail);
    LikedAlbumsLawful(detail);
    AlbumViews(detail, xs);
    ReversedPass(k, albums, xs, now);
    assert MarkedIds(k, albums) == LikedAlbumIds(albums);
    assert MarkedIds(k, Pass(k, albums, Reverse(xs), now).store) == LikedAlbumIds(Pass(k, albums, Reverse(xs), now).store);
  }

  /**
   * `syncLikedAlbums` inside its guard. The remote list comes from `getRemoteData`, so a failed
   * fetch reads as an empty section. No row is deleted, and the only new rows are remote albums
   * whose detail could be fetched. Afterwards the liked albums are the previously liked ones
   * still listed remotely plus every remote album whose detail could be fetched; the stale likes
   * are toggled off.
   */
  function LikedAlbumsPass(albums: map<Id, Album>, fetched: Result<seq<LibraryItem>>, detail: Id -> Option<AlbumDetail>, now: Timestamp): (r: PassResult<Album>)
    ensures r.store.Keys == albums.Keys + DetailedIds(RemoteAlbums(fetched), detail)
    ensures LikedAlbumIds(r.store)
         == (LikedAlbumIds(albums) * AlbumIds(RemoteAlbums(fetched))) + DetailedIds(RemoteAlbums(fetched), detail)
    ensures r.unmarked == LikedAlbumIds(albums) - AlbumIds(RemoteAlbums(fetched))
  {
    var xs := RemoteAlbums(fetched);
    assert GetRemoteData(fetched, AlbumOf) == Reverse(xs);
    AlbumPassRows(detail, albums, xs, now);
    Pass(LikedAlbums(detail), albums, Reverse(xs), now)
  }

  /** When every remote album's detail page can be fetched, the liked albums become exactly the remote ones. */
  lemma LikedAlbumsConverge(albums: map<Id, Album>, fetched: Result<seq<LibraryItem>>, detail: Id -> Option<AlbumDetail>, now: Timestamp)
    requires forall j :: 0 <= j < |RemoteAlbums(fetched)| ==> detail(RemoteAlbums(fetched)[j].browseId).Some?
    ensures LikedAlbumIds(LikedAlbumsPass(albums, fetched, detail, now).store) == AlbumIds(RemoteAlbums(fetched))
    ensures LikedAlbumsPass(albums, fetched, detail, now).store.Keys == albums.Keys + AlbumIds(RemoteAlbums(fetched))
  {
    assert DetailedIds(RemoteAlbums(fetched), detail) == AlbumIds(RemoteAlbums(fetched));
  }

  /**
   * A remote album whose detail page cannot be fetched is skipped: it is not inserted, and a
   * known row for it is left exactly as it was, liked or not.
   */
  lemma LikedAlbumsDetailFailure(albums: map<Id, Album>, fetched: Result<seq<LibraryItem>>, detail: Id -> Option<AlbumDetail>, now: Timestamp, id: Id)
    requires id in AlbumIds(RemoteAlbums(fetched)) && detail(id).None?
    ensures id in LikedAlbumsPass(albums, fetched, detail, now).store <==> id in albums
    ensures id in albums ==> LikedAlbumsPass(albums, fetched, detail, now).store[id] == albums[id]
  {
    var k := LikedAlbums(detail);
    var xs := RemoteAlbums(fetched);
    LikedAlbumsLawful(detail);
    AlbumViews(detail, xs);
    ReverseViews(k, xs);
    PassRows(k, albums, Reverse(xs), now);
    assert id !in DetailedIds(xs, detail);
  }

  /** A failed fetch of the library section un-likes every album; nothing is inserted or deleted. */
  lemma LikedAlbumsFetchFailure(albums: map<Id, Album>, detail: Id -> Option<AlbumDetail>, now: Timestamp)
    ensures LikedAlbumsPass(albums, Failure, detail, now).store.Keys == albums.Keys
    ensures LikedAlbumIds(LikedAlbumsPass(albums, Failure, detail, now).store) == {}
    ensures LikedAlbumsPass(albums, Failure, detail, now).unmarked == LikedAlbumIds(albums)
    ensures LikedAlbumsPass(albums, Failure, detail, now).writes == []
  {
  }

  /**
   * Albums are handled in reverse page order: each id is written at most once, the writes follow
   * the reversed remote id list, and a new row is the album's detail, liked now.
   */
  lemma LikedAlbumsInReverseOrder(albums: map<Id, Album>, fetched: Result<seq<LibraryItem>>, detail: Id -> Option<AlbumDetail>, now: Timestamp)
    ensures Distinct(WriteIds(LikedAlbumsPass(albums, fetched, detail, now).writes))
    ensures IsSubseq(WriteIds(LikedAlbumsPass(albums, fetched, detail, now).writes), Reverse(Ids(LikedAlbums(detail), RemoteAlbums(fetched))))
    ensures forall id :: id in LikedAlbumsPass(albums, fetched, detail, now).store && id !in albums ==>
      detail(id).Some? && LikedAlbumsPass(albums, fetched, detail, now).store[id] == Album(detail(id).value.title, Some(now))
  {
    var k := LikedAlbums(detail);
    var xs := RemoteAlbums(fetched);
    LikedAlbumsLawful(detail);
    AlbumViews(detail, xs);
    ReversedPass(k, albums, xs, now);
    PassNewRows(k, albums, Reverse(xs), now);
  }

  /** A second liked-albums pass with the same remote answers writes nothing. */
  lemma LikedAlbumsIdempotent(albums: map<Id, Album>, fetched: Result<seq<LibraryItem>>, detail: Id -> Option<AlbumDetail>, now: Timestamp, later: Timestamp)
    ensures LikedAlbumsPass(LikedAlbumsPass(albums, fetched, detail, now).store, fetched, detail, later)
         == Untouched(LikedAlbumsPass(albums, fetched, detail, now).store)
  {
    LikedAlbumsLawful(detail);
    PassIdempotent(LikedAlbums(detail), albums, GetRemoteData(fetched, AlbumOf), now, later);
  }

  // =============================================================================================
  // Subscribed artists

  function ArtistId(i: ArtistItem): Id { i.id }

  function IsSubscribed(a: Artist): bool { a.bookmarkedAt.Some? }

  /** The `ArtistEntity` inserted for an unknown remote artist, subscribed now. */
  function NewArtist(i: ArtistItem, now: Timestamp): Artist
  {
    Artist(i.title, i.thumbnail, i.channelId, Some(now))
  }

  /** Subscribed artists: the marker is `bookmarkedAt`. */
  function Artists(): Kind<ArtistItem, Artist>
  {
    Kind(ArtistId, IsSubscribed, ToggleArtistLike, (i: ArtistItem, t: Timestamp) => Some(NewArtist(i, t)))
  }

  lemma ArtistsLawful()
    ensures Lawful(Artists())
  {
  }

  /** The ids of the subscribed artists. */
  function SubscribedIds(artists: map<Id, Artist>): set<Id>
  {
    set id | id in artists && artists[id].bookmarkedAt.Some?
  }

  /** The ids of a list of remote artists. */
  function ArtistIds(items: seq<ArtistItem>): set<Id>
  {
    set j | 0 <= j < |items| :: items[j].id
  }

  /** The artists of a fetched library section, in page order (none when the fetch failed). */
  function RemoteArtists(fetched: Result<seq<LibraryItem>>): seq<ArtistItem>
  {
    SectionItems(fetched, ArtistOf)
  }

  /** The generic views of an artist list are its artist ids; every artist is accepted. */
  lemma ArtistViews(items: seq<ArtistItem>)
    ensures IdSet(Artists(), items) == ArtistIds(items)
    ensures AcceptedIds(Artists(), items) == ArtistIds(items)
  {
    forall id | id in ArtistIds(items) ensures id in AcceptedIds(Artists(), items) {
      var j :| 0 <= j < |items| && items[j].id == id;
      assert Accepts(Artists(), items[j]);
    }
  }

  /** The generic members of an artist table are its subscribed artists. */
  lemma ArtistMembers(artists: map<Id, Artist>)
    ensures MarkedIds(Artists(), artists) == SubscribedIds(artists)
  {
  }

  /** The rows of an artists pass over a reversed list, in artist terms. */
  lemma ArtistPassRows(artists: map<Id, Artist>, xs: seq<ArtistItem>, now: Timestamp)
    ensures Pass(Artists(), artists, Reverse(xs), now).store.Keys == artists.Keys + ArtistIds(xs)
    ensures SubscribedIds(Pass(Artists(), artists, Reverse(xs), now).store) == ArtistIds(xs)
    ensures Pass(Artists(), artists, Reverse(xs), now).unmarked == SubscribedIds(artists) - ArtistIds(xs)
  {
    var k := Artists();
    var p := Pass(k, artists, Reverse(xs), now);
    ArtistsLawful();
    ArtistViews(xs);
    ReversedPass(k, artists, xs, now);
    ArtistMembers(artists);
    ArtistMembers(p.store);
  }

  /**
   * `syncArtistsSubscriptions` inside its guard. The remote list comes from `getRemoteData`, so a
   * failed fetch reads as an empty section. No row is deleted, the unknown remote artists are
   * inserted, and the subscribed ids become exactly the remote artist ids.
   */
  function ArtistsPass(artists: map<Id, Artist>, fetched: Result<seq<LibraryItem>>, now: Timestamp): (r: PassResult<Artist>)
    ensures r.store.Keys == artists.Keys + ArtistIds(RemoteArtists(fetched))
    ensures SubscribedIds(r.store) == ArtistIds(RemoteArtists(fetched))
    ensures r.unmarked == SubscribedIds(artists) - ArtistIds(RemoteArtists(fetched))
  {
    var xs := RemoteArtists(fetched);
    assert GetRemoteData(fetched, ArtistOf) == Reverse(xs);
    ArtistPassRows(artists, xs, now);
    Pass(Artists(), artists, Reverse(xs), now)
  }

  /** A failed fetch of the library section unsubscribes every artist; nothing is inserted or deleted. */
  lemma ArtistsFetchFailure(artists: map<Id, Artist>, now: Timestamp)
    ensures ArtistsPass(artists, Failure, now).store.Keys == artists.Keys
    ensures SubscribedIds(ArtistsPass(artists, Failure, now).store) == {}
    ensures ArtistsPass(artists, Failure, now).unmarked == SubscribedIds(artists)
    ensures ArtistsPass(artists, Failure, now).writes == []
  {
  }

  /**
   * Artists are handled in reverse page order: each id is written at most once, the writes follow
   * the reversed remote id list, and a new row copies the last remote artist with its id,
   * subscribed now.
   */
  lemma ArtistsInReverseOrder(artists: map<Id, Artist>, fetched: Result<seq<LibraryItem>>, now: Timestamp)
    ensures Distinct(WriteIds(ArtistsPass(artists, fetched, now).writes))
    ensures IsSubseq(WriteIds(ArtistsPass(artists, fetched, now).writes), Reverse(Ids(Artists(), RemoteArtists(fetched))))
    ensures forall id :: id in ArtistsPass(artists, fetched, now).store && id !in artists ==>
      exists j :: LastWith(Artists(), RemoteArtists(fetched), id, j)
        && ArtistsPass(artists, fetched, now).store[id] == NewArtist(RemoteArtists(fetched)[j], now)
  {
    var xs := RemoteArtists(fetched);
    var r := ArtistsPass(artists, fetched, now).store;
    ArtistsLawful();
    ArtistViews(xs);
    ReversedPass(Artists(), artists, xs, now);
    ReversedPassNewRows(Artists(), artists, xs, now);
    forall id | id in r && id !in artists
      ensures exists j :: LastWith(Artists(), xs, id, j) && r[id] == NewArtist(xs[j], now)
    {
      var j :| LastWith(Artists(), xs, id, j) && Artists().create(xs[j], now) == Some(r[id]);
    }
  }

  /** A second artists pass with the same remote answer writes nothing. */
  lemma ArtistsIdempotent(artists: map<Id, Artist>, fetched: Result<seq<LibraryItem>>, now: Timestamp, later: Timestamp)
    ensures ArtistsPass(ArtistsPass(artists, fetched, now).store, fetched, later)
         == Untouched(ArtistsPass(artists, fetched, now).store)
  {
    ArtistsLawful();
    PassIdempotent(Artists(), artists, GetRemoteData(fetched, ArtistOf), now, later);
  }
}

=== FILE: entities.dfy ===
/**
 * The local rows the reconciliation reads and writes, and their toggles. A membership marker is
 * the only truth of membership; toggling it never deletes the row. Each toggle flips its own
 * marker; only taking a song out of the library may also touch its like (`LibraryExit`).
 */
module Entities {
  import opened Wrappers
  import opened Types

  /** A song row: liked (with the date it was liked) and in-library are independent markers. */
  datatype Song = Song(title: string, liked: bool, likedDate: Option<Timestamp>, inLibrary: Option<Timestamp>)

  /** `SongEntity.localToggleLike`: flips `liked`, dating a like and clearing the date of an un-like. */
  function LocalToggleLike(s: Song, now: Timestamp): (r: Song)
    ensures r.liked == !s.liked
    ensures r.likedDate.Some? == r.liked
    ensures r.title == s.title && r.inLibrary == s.inLibrary
  {
    s.(liked := !s.liked, likedDate := if !s.liked then Some(now) else None)
  }

  /**
   * What `SongEntity.toggleLibrary` does to the like of a song it takes out of the library. The
   * entity class is not part of this model, so both readings are kept: the like and its date are
   * left alone, or both are cleared.
   */
  datatype LibraryExit = KeepsLike | ClearsLike

  /**
   * `SongEntity.toggleLibrary`: adds a song to the library (dated now), keeping its like, or takes
   * it out, treating the like as `exit` says.
   */
  function ToggleLibrary(s: Song, exit: LibraryExit, now: Timestamp): (r: Song)
    ensures r.inLibrary.Some? == s.inLibrary.None?
    ensures r.title == s.title
    ensures s.inLibrary.None? || exit == KeepsLike ==> r.liked == s.liked && r.likedDate == s.likedDate
    ensures s.inLibrary.Some? && exit == ClearsLike ==> !r.liked && r.likedDate.None?
  {
    if s.inLibrary.None? then s.(inLibrary := Some(now))
    else if exit == KeepsLike then s.(inLibrary := None)
    else s.(inLibrary := None, liked := false, likedDate := None)
  }

  /** An album row; `bookmarkedAt` set means the album is liked. */
  datatype Album = Album(title: string, bookmarkedAt: Option<Timestamp>)

  /** `AlbumEntity.localToggleLike`. */
  function ToggleAlbumLike(a: Album, now: Timestamp): (r: Album)
    ensures r.bookmarkedAt.Some? == a.bookmarkedAt.None?
    ensures r.title == a.title
  {
    a.(bookmarkedAt := if a.bookmarkedAt.Some? then None else Some(now))
  }

  /** An artist row; `bookmarkedAt` set means the artist is subscribed. */
  datatype Artist = Artist(name: string, thumbnailUrl: Option<string>, channelId: Option<string>, bookmarkedAt: Option<Timestamp>)

  /** `ArtistEntity.localToggleLike`. */
  function ToggleArtistLike(a: Artist, now: Timestamp): (r: Artist)
    ensures r.bookmarkedAt.Some? == a.bookmarkedAt.None?
    ensures r.name == a.name && r.thumbnailUrl == a.thumbnailUrl && r.channelId == a.channelId
  {
    a.(bookmarkedAt := if a.bookmarkedAt.Some? then None else Some(now))
  }
}

=== FILE: guard.dfy ===
/**
 * The re-entrancy guard around every pass: a boolean flag taken with
 * `compareAndSet(expect = false, update = true)` and cleared in a `finally` block.
 */
module Guard {
  /** One `isSyncing…` flag. */
  datatype Flag = Idle | Syncing

  /** The test-and-set: it succeeds exactly when the flag was clear, and leaves the flag set. */
  function CompareAndSet(f: Flag): (r: (bool, Flag))
    ensures r.0 <==> f == Idle
    ensures r.1 == Syncing
  {
    if f == Idle then (true, Syncing) else (false, Syncing)
  }

  /** How a pass body ends: normally, or by an exception, with whatever it had written by then. */
  datatype Exit<S> = Returned(state: S) | Threw(state: S)

  /** What a guarded call leaves: the flag, the state, and whether an exception escaped. */
  datatype Outcome<S> = Outcome(flag: Flag, state: S, threw: bool)

  /**
   * A guarded pass. A call that finds the flag set returns at once and changes nothing. Otherwise
   * the body runs while the flag is set, and the flag is clear again however the body ends.
   */
  function Guarded<S>(flag: Flag, state: S, body: (Flag, S) -> Exit<S>): (r: Outcome<S>)
    ensures flag == Syncing ==> r == Outcome(Syncing, state, false)
    ensures flag == Idle ==> r.flag == Idle
    ensures flag == Idle ==> r.state == body(Syncing, state).state
    ensures flag == Idle ==> (r.threw <==> body(Syncing, state).Threw?)
  {
    var (won, held) := CompareAndSet(flag);
    if !won then Outcome(held, state, false)
    else
      var exit := body(held, state);
      Outcome(Idle, exit.state, exit.Threw?)
  }

  /**
   * A pass started again from inside itself, seeing the flag as the body does, does nothing:
   * only the outer pass's own work remains.
   */
  lemma ReentrantCallIsNoop<S>(state: S, work: S -> S, inner: (Flag, S) -> Exit<S>)
    ensures Guarded(Idle, state, (f: Flag, s: S) => Returned(Guarded(f, work(s), inner).state))
         == Outcome(Idle, work(state), false)
  {
  }

  /** After a guarded call from a clear flag, the next call runs its body again. */
  lemma GuardReleased<S>(state: S, first: (Flag, S) -> Exit<S>, second: (Flag, S) -> Exit<S>)
    ensures var o := Guarded(Idle, state, first);
      Guarded(o.flag, o.state, second).state == second(Syncing, first(Syncing, state).state).state
  {
  }
}

=== FILE: items.dfy ===
/**
 * What the remote library service hands back: the summary items of a library section (a tagged
 * union, narrowed with `filterIsInstance`), the songs of a playlist page, and an album's detail.
 * Only the fields the reconciliation reads or copies are kept.
 */
module Items {
  import opened Wrappers
  import opened Types
  import opened Seqs

  datatype SongItem = SongItem(id: Id, title: string)

  /** An album summary; its id is its browse id. */
  datatype AlbumItem = AlbumItem(browseId: Id, title: string)

  datatype ArtistItem = ArtistItem(id: Id, title: string, thumbnail: Option<string>, channelId: Option<string>)

  datatype PlaylistItem = PlaylistItem(
    id: Id,
    title: string,
    isEditable: bool,
    songCountText: Option<string>,
    playParams: Option<string>,
    shuffleParams: Option<string>,
    radioParams: Option<string>)

  /** One entry of a library page. */
  datatype LibraryItem =
    | SongEntry(song: SongItem)
    | AlbumEntry(album: AlbumItem)
    | ArtistEntry(artist: ArtistItem)
    | PlaylistEntry(playlist: PlaylistItem)

  /** The album page fetched per album; only the title reaches the album row in this model. */
  datatype AlbumDetail = AlbumDetail(title: string)

  function SongOf(x: LibraryItem): Option<SongItem> { if x.SongEntry? then Some(x.song) else None }
  function AlbumOf(x: LibraryItem): Option<AlbumItem> { if x.AlbumEntry? then Some(x.album) else None }
  function ArtistOf(x: LibraryItem): Option<ArtistItem> { if x.ArtistEntry? then Some(x.artist) else None }
  function PlaylistOf(x: LibraryItem): Option<PlaylistItem> { if x.PlaylistEntry? then Some(x.playlist) else None }

  /** `filterIsInstance<T>()`: the entries of one kind, in page order. */
  function Instances<T(==, !new)>(items: seq<LibraryItem>, pick: LibraryItem -> Option<T>): (r: seq<T>)
    ensures |r| <= |items|
    ensures forall x :: x in r <==> exists j :: 0 <= j < |items| && pick(items[j]) == Some(x)
  {
    if |items| == 0 then []
    else
      var rest := Instances(items[1..], pick);
      assert forall j :: 0 < j < |items| ==> items[j] == items[1..][j - 1];
      match pick(items[0])
      case Some(x) => [x] + rest
      case None => rest
  }

  /** `filterIsInstance` on one entry: the entry's value when it is of that kind, nothing otherwise. */
  lemma InstancesOne<T(!new)>(x: LibraryItem, pick: LibraryItem -> Option<T>)
    ensures Instances([x], pick) == if pick(x).Some? then [pick(x).value] else []
  {
    assert [x][1..] == [];
  }

  /**
   * `filterIsInstance` works entry by entry: filtering two pages one after the other gives the
   * filtered pages one after the other. With `InstancesOne` this fixes the result completely: the
   * entries of that kind, in page order, duplicates included.
   */
  lemma {:induction false} InstancesAppend<T(!new)>(a: seq<LibraryItem>, b: seq<LibraryItem>, pick: LibraryItem -> Option<T>)
    ensures Instances(a + b, pick) == Instances(a, pick) + Instances(b, pick)
    decreases |a|
  {
    if |a| == 0 {
      assert a + b == b;
    } else {
      assert (a + b)[0] == a[0];
      assert (a + b)[1..] == a[1..] + b;
      InstancesAppend(a[1..], b, pick);
    }
  }

  /** The entries of one kind of a fetched section, in page order; none when the fetch failed. */
  function SectionItems<T(==, !new)>(fetched: Result<seq<LibraryItem>>, pick: LibraryItem -> Option<T>): seq<T>
  {
    match fetched
    case Failure => []
    case Success(page) => Instances(page, pick)
  }

  /**
   * `getRemoteData`: the entries of one kind of a library section, reversed; a failed fetch
   * yields the empty list, exactly as a successful fetch of an empty section would.
   */
  function GetRemoteData<T(==, !new)>(fetched: Result<seq<LibraryItem>>, pick: LibraryItem -> Option<T>): (r: seq<T>)
    ensures fetched.Failure? ==> r == []
    ensures Reverse(r) == SectionItems(fetched, pick)
    ensures r == Reverse(SectionItems(fetched, pick))
  {
    match fetched
    case Failure => []
    case Success(page) =>
      var r := Reverse(Instances(page, pick));
      assert Reverse(r) == Instances(page, pick) by { ReverseTwice(Instances(page, pick)); }
      r
  }
}

=== FILE: playlists.dfy ===
/**
 * `syncSavedPlaylists` and `syncPlaylist`. Playlist rows are keyed by a local id and carry the
 * remote browse id, which is null for playlists that only exist locally. The pass reads one
 * snapshot of the saved (bookmarked) rows, un-saves the snapshot rows whose browse id is no longer
 * listed remotely (never the local-only ones), then for each listed playlist, in reversed remote
 * order, refreshes the snapshot row with that browse id or inserts a new saved row, and
 * re-synchronises that playlist's songs. The reserved ids "LM" (liked music) and "SE" are dropped
 * from the remote list before anything else.
 */
module Playlists {
  import opened Wrappers
  import opened Types
  import opened Seqs
  import opened Items
  import opened SongCount

  /** Local playlist ids; fresh ones come from a counter (the source draws random ones). */
  type LocalId = nat

  /** The playlist fields copied from the remote item. */
  datatype PlaylistMeta = PlaylistMeta(
    name: string,
    isEditable: bool,
    remoteSongCount: Option<int>,
    playParams: Option<string>,
    shuffleParams: Option<string>,
    radioParams: Option<string>)

  /** A playlist row; `bookmarkedAt` set means the playlist is saved. */
  datatype Playlist = Playlist(browseId: Option<Id>, bookmarkedAt: Option<Timestamp>, meta: PlaylistMeta)

  /** The playlist table and the next fresh local id. */
  datatype PlaylistStore = PlaylistStore(rows: map<LocalId, Playlist>, nextId: LocalId)

  /** Every row's id was handed out before `nextId`, so `nextId` is fresh. */
  ghost predicate Valid(s: PlaylistStore)
  {
    forall id :: id in s.rows ==> id < s.nextId
  }

  /** One membership row: the song at `position` of local playlist `playlistId`. */
  datatype PlaylistSongMap = PlaylistSongMap(songId: Id, playlistId: LocalId, position: nat)

  /** The playlist table together with the membership table. */
  datatype PlaylistState = PlaylistState(store: PlaylistStore, memberships: set<PlaylistSongMap>)

  /** One call `syncPlaylist(browseId, playlistId)` made by the pass. */
  datatype SyncCall = SyncCall(browseId: Id, playlistId: LocalId)

  /** What a saved-playlists pass leaves behind, with the content syncs it ran, in order. */
  datatype PlaylistsResult = PlaylistsResult(state: PlaylistState, calls: seq<SyncCall>)

  // ---------------------------------------------------------------------------------------------
  // syncPlaylist

  /** `mapIndexed` from index `start` on: each song paired with its running index. */
  function SongMapsFrom(songs: seq<SongItem>, playlistId: LocalId, start: nat): (maps: seq<PlaylistSongMap>)
    ensures |maps| == |songs|
    ensures forall p :: 0 <= p < |songs| ==> maps[p] == PlaylistSongMap(songs[p].id, playlistId, start + p)
  {
    if |songs| == 0 then []
    else [PlaylistSongMap(songs[0].id, playlistId, start)] + SongMapsFrom(songs[1..], playlistId, start + 1)
  }

  /** The rows `syncPlaylist` computes: one per song, positions 0..n-1 in remote order. */
  function SongMaps(songs: seq<SongItem>, playlistId: LocalId): (maps: seq<PlaylistSongMap>)
    ensures |maps| == |songs|
    ensures forall p :: 0 <= p < |songs| ==> maps[p] == PlaylistSongMap(songs[p].id, playlistId, p)
  {
    SongMapsFrom(songs, playlistId, 0)
  }

  /** `clearPlaylist(playlistId)`: drops every membership row of that playlist. */
  function ClearPlaylist(memberships: set<PlaylistSongMap>, playlistId: LocalId): (r: set<PlaylistSongMap>)
    ensures r <= memberships
    ensures forall m :: m in r ==> m.playlistId != playlistId
    ensures forall m :: m in memberships && m.playlistId != playlistId ==> m in r
  {
    set m | m in memberships && m.playlistId != playlistId
  }

  /**
   * The transaction `syncPlaylist` runs: it clears the playlist, then computes the new
   * membership rows, but no statement inserts them, so the playlist is left empty.
   */
  function ContentTransaction(memberships: set<PlaylistSongMap>, playlistId: LocalId, songs: seq<SongItem>): (r: set<PlaylistSongMap>)
    ensures forall m :: m in r <==> m in memberships && m.playlistId != playlistId
    ensures forall p :: 0 <= p < |songs| ==> SongMaps(songs, playlistId)[p] !in r
  {
    var cleared := ClearPlaylist(memberships, playlistId);
    var computed := SongMaps(songs, playlistId);
    cleared
  }

  /**
   * `syncPlaylist(browseId, playlistId)`: on a failed fetch the memberships are untouched; on a
   * successful one the playlist's membership rows are all gone and every other row is kept.
   */
  function SyncPlaylist(memberships: set<PlaylistSongMap>, browseId: Id, playlistId: LocalId, fetch: Id -> Result<seq<SongItem>>): (r: set<PlaylistSongMap>)
    ensures fetch(browseId).Failure? ==> r == memberships
    ensures fetch(browseId).Success? ==> forall m :: m in r <==> m in memberships && m.playlistId != playlistId
  {
    match fetch(browseId)
    case Failure => memberships
    case Success(songs) => ContentTransaction(memberships, playlistId, songs)
  }

  // ---------------------------------------------------------------------------------------------
  // The remote list

  predicate IsReserved(id: Id)
  {
    id == "LM" || id == "SE"
  }

  /** `filterNot { it.id == "LM" || it.id == "SE" }`, keeping the order of the rest. */
  function WithoutReserved(ps: seq<PlaylistItem>): (r: seq<PlaylistItem>)
    ensures forall x :: x in r <==> x in ps && !IsReserved(x.id)
  {
    if |ps| == 0 then []
    else if IsReserved(ps[0].id) then WithoutReserved(ps[1..])
    else [ps[0]] + WithoutReserved(ps[1..])
  }

  /** `filterNot` on one playlist: kept unless its id is reserved. */
  lemma WithoutReservedOne(x: PlaylistItem)
    ensures WithoutReserved([x]) == if IsReserved(x.id) then [] else [x]
  {
    assert [x][1..] == [];
  }

  /**
   * `filterNot` works playlist by playlist: filtering two lists one after the other gives the
   * filtered lists one after the other. With `WithoutReservedOne` this fixes the result
   * completely: the unreserved playlists, in order, duplicates included.
   */
  lemma {:induction false} WithoutReservedAppend(a: seq<PlaylistItem>, b: seq<PlaylistItem>)
    ensures WithoutReserved(a + b) == WithoutReserved(a) + WithoutReserved(b)
    decreases |a|
  {
    if |a| == 0 {
      assert a + b == b;
    } else {
      assert (a + b)[0] == a[0];
      assert (a + b)[1..] == a[1..] + b;
      WithoutReservedAppend(a[1..], b);
    }
  }

  /** The playlists the pass works through: the section's playlists, reserved ones dropped, reversed. */
  function PlaylistList(page: seq<LibraryItem>): seq<PlaylistItem>
  {
    Reverse(WithoutReserved(Instances(page, PlaylistOf)))
  }

  /** The browse ids of a list of remote playlists. */
  function PlaylistIds(list: seq<PlaylistItem>): set<Id>
  {
    set j | 0 <= j < |list| :: list[j].id
  }

  /** The ids of the playlists listed in a section, the reserved ones excepted. */
  function ListedIds(page: seq<LibraryItem>): (ids: set<Id>)
    ensures forall id :: id in ids ==> !IsReserved(id)
  {
    set x | x in Instances(page, PlaylistOf) && !IsReserved(x.id) :: x.id
  }

  // ---------------------------------------------------------------------------------------------
  // The rows

  /** The fields a remote playlist item supplies; the song count is parsed from its text. */
  function MetaOf(item: PlaylistItem): PlaylistMeta
  {
    PlaylistMeta(item.title, item.isEditable, RemoteSongCount(item.songCountText),
      item.playParams, item.shuffleParams, item.radioParams)
  }

  /** The row inserted for a remote playlist not in the snapshot: saved now. */
  function NewPlaylist(item: PlaylistItem, now: Timestamp): Playlist
  {
    Playlist(Some(item.id), Some(now), MetaOf(item))
  }

  /** `PlaylistEntity.localToggleLike`. */
  function ToggleBookmark(p: Playlist, now: Timestamp): (r: Playlist)
    ensures r.bookmarkedAt.Some? == p.bookmarkedAt.None?
    ensures r.browseId == p.browseId && r.meta == p.meta
  {
    p.(bookmarkedAt := if p.bookmarkedAt.Some? then None else Some(now))
  }

  /** The snapshot `playlistsByNameAsc().first()`: the saved rows. */
  function Saved(rows: map<LocalId, Playlist>): (snap: map<LocalId, Playlist>)
    ensures snap.Keys <= rows.Keys
    ensures forall id :: id in snap <==> id in rows && rows[id].bookmarkedAt.Some?
    ensures forall id :: id in snap ==> snap[id] == rows[id]
  {
    map id | id in rows && rows[id].bookmarkedAt.Some? :: rows[id]
  }

  /** The browse ids of the saved rows that have one. */
  function SavedBrowseIds(rows: map<LocalId, Playlist>): set<Id>
  {
    set id | id in rows && rows[id].bookmarkedAt.Some? && rows[id].browseId.Some? :: rows[id].browseId.value
  }

  /**
   * `dbPlaylists.find { playlist.id == it.playlist.browseId }`, scanning local ids upwards from
   * `from` below `bound`: the least snapshot row with that browse id.
   */
  function FindFrom(snap: map<LocalId, Playlist>, browseId: Id, from: nat, bound: nat): (r: Option<LocalId>)
    ensures r.Some? ==> from <= r.value < bound && r.value in snap && snap[r.value].browseId == Some(browseId)
    ensures r.Some? ==> forall id :: from <= id < r.value && id in snap ==> snap[id].browseId != Some(browseId)
    ensures r.None? ==> forall id :: from <= id < bound && id in snap ==> snap[id].browseId != Some(browseId)
    decreases bound - from
  {
    if from >= bound then None
    else if from in snap && snap[from].browseId == Some(browseId) then Some(from)
    else FindFrom(snap, browseId, from + 1, bound)
  }

  /** The snapshot rows the removal step un-saves: a browse id that is no longer listed. */
  function StaleSaved(snap: map<LocalId, Playlist>, listed: set<Id>): set<LocalId>
  {
    set id | id in snap && snap[id].browseId.Some? && snap[id].browseId.value !in listed
  }

  /**
   * The removal step: the stale rows are toggled (un-saved when saved), keeping their browse id
   * and metadata; no row is removed and no other row changes.
   */
  function Unsave(rows: map<LocalId, Playlist>, stale: set<LocalId>, now: Timestamp): (r: map<LocalId, Playlist>)
    ensures r.Keys == rows.Keys
    ensures forall id :: id in rows && id !in stale ==> r[id] == rows[id]
    ensures forall id :: id in rows && id in stale ==>
      r[id].bookmarkedAt.Some? == rows[id].bookmarkedAt.None? && r[id].browseId == rows[id].browseId && r[id].meta == rows[id].meta
  {
    map id | id in rows :: if id in stale then ToggleBookmark(rows[id], now) else rows[id]
  }

  /**
   * The removal step alone: afterwards the saved browse ids are exactly the saved ones that are
   * still listed. A saved row whose browse id is not listed is un-saved; every other row is left.
   */
  lemma RemovalStepSavedIds(rows: map<LocalId, Playlist>, listed: set<Id>, now: Timestamp)
    ensures SavedBrowseIds(Unsave(rows, StaleSaved(Saved(rows), listed), now)) == SavedBrowseIds(rows) * listed
  {
  }

  /**
   * One listed playlist: refresh the snapshot row with its browse id, or insert a new saved row
   * under the next fresh id; then sync its songs into that local playlist.
   */
  function AddOne(snap: map<LocalId, Playlist>, bound: nat, st: PlaylistState, item: PlaylistItem,
                  fetch: Id -> Result<seq<SongItem>>, now: Timestamp): (r: (PlaylistState, SyncCall))
    ensures r.1.browseId == item.id
    ensures r.1.playlistId in r.0.store.rows && r.0.store.rows[r.1.playlistId].browseId == Some(item.id)
    ensures r.0.store.rows == st.store.rows[r.1.playlistId := r.0.store.rows[r.1.playlistId]]
    ensures FindFrom(snap, item.id, 0, bound).Some? ==>
      && r.1.playlistId == FindFrom(snap, item.id, 0, bound).value
      && r.0.store.rows[r.1.playlistId] == snap[r.1.playlistId].(meta := MetaOf(item))
      && r.0.store.nextId == st.store.nextId
    ensures FindFrom(snap, item.id, 0, bound).None? ==>
      && r.1.playlistId == st.store.nextId
      && r.0.store.rows[r.1.playlistId] == NewPlaylist(item, now)
      && r.0.store.nextId == st.store.nextId + 1
    ensures forall m :: m in r.0.memberships <==>
      m in st.memberships && !(fetch(item.id).Success? && m.playlistId == r.1.playlistId)
  {
    match FindFrom(snap, item.id, 0, bound)
    case Some(id) =>
      var rows := st.store.rows[id := snap[id].(meta := MetaOf(item))];
      (PlaylistState(st.store.(rows := rows), SyncPlaylist(st.memberships, item.id, id, fetch)), SyncCall(item.id, id))
    case None =>
      var id := st.store.nextId;
      var rows := st.store.rows[id := NewPlaylist(item, now)];
      (PlaylistState(PlaylistStore(rows, id + 1), SyncPlaylist(st.memberships, item.id, id, fetch)), SyncCall(item.id, id))
  }

  /** Every listed playlist in turn, first first. */
  function AddAll(snap: map<LocalId, Playlist>, bound: nat, st: PlaylistState, list: seq<PlaylistItem>,
                  fetch: Id -> Result<seq<SongItem>>, now: Timestamp): (r: PlaylistsResult)
    ensures |r.calls| == |list|
    ensures st.store.rows.Keys <= r.state.store.rows.Keys
    ensures st.store.nextId <= r.state.store.nextId
    ensures r.state.memberships <= st.memberships
    decreases |list|
  {
    if |list| == 0 then PlaylistsResult(st, [])
    else
      var first := AddOne(snap, bound, st, list[0], fetch, now);
      var rest := AddAll(snap, bound, first.0, list[1..], fetch, now);
      PlaylistsResult(rest.state, [first.1] + rest.calls)
  }

  /**
   * `syncSavedPlaylists` inside its guard. A failed fetch of the section writes nothing and syncs
   * no playlist.
   */
  function SavedPlaylistsPass(st: PlaylistState, fetched: Result<seq<LibraryItem>>,
                              fetch: Id -> Result<seq<SongItem>>, now: Timestamp): (r: PlaylistsResult)
    ensures fetched.Failure? ==> r == PlaylistsResult(st, [])
    ensures fetched.Success? ==> |r.calls| == |PlaylistList(fetched.value)|
  {
    match fetched
    case Failure => PlaylistsResult(st, [])
    case Success(page) =>
      var list := PlaylistList(page);
      var snap := Saved(st.store.rows);
      var rows := Unsave(st.store.rows, StaleSaved(snap, PlaylistIds(list)), now);
      AddAll(snap, st.store.nextId, st.(store := st.store.(rows := rows)), list, fetch, now)
  }

  // ---------------------------------------------------------------------------------------------
  // Properties

  /** The snapshot a pass works from: saved rows of the store, all with ids below `bound`. */
  ghost predicate SnapshotOf(snap: map<LocalId, Playlist>, bound: nat, s: PlaylistStore)
  {
    && Valid(s)
    && bound <= s.nextId
    && (forall id :: id in snap ==> id < bound && id in s.rows)
    && (forall id :: id in snap ==> snap[id].bookmarkedAt.Some?)
  }

  /** `row` is snapshot row `id` refreshed from a listed playlist carrying its browse id. */
  ghost predicate Refreshed(snap: map<LocalId, Playlist>, list: seq<PlaylistItem>, id: LocalId, row: Playlist)
  {
    id in snap && exists item :: item in list && snap[id].browseId == Some(item.id) && row == snap[id].(meta := MetaOf(item))
  }

  /** `row` is the new saved row of a listed playlist. */
  ghost predicate NewRowFor(list: seq<PlaylistItem>, now: Timestamp, row: Playlist)
  {
    exists item :: item in list && row == NewPlaylist(item, now)
  }

  /** The local playlists emptied by the content syncs that fetched successfully. */
  function Cleared(calls: seq<SyncCall>, fetch: Id -> Result<seq<SongItem>>): set<LocalId>
  {
    set j | 0 <= j < |calls| && fetch(calls[j].browseId).Success? :: calls[j].playlistId
  }

  /**
   * The additions keep the ids fresh and delete nothing; an old row is either untouched or a
   * refreshed snapshot row, and every new row is the saved row of a listed playlist.
   */
  lemma {:induction false} AddAllRows(snap: map<LocalId, Playlist>, bound: nat, st: PlaylistState, list: seq<PlaylistItem>,
                                      fetch: Id -> Result<seq<SongItem>>, now: Timestamp)
    requires SnapshotOf(snap, bound, st.store)
    ensures var r := AddAll(snap, bound, st, list, fetch, now).state.store;
      && SnapshotOf(snap, bound, r)
      && st.store.rows.Keys <= r.rows.Keys
      && st.store.nextId <= r.nextId
      && (forall id :: id in st.store.rows ==> r.rows[id] == st.store.rows[id] || Refreshed(snap, list, id, r.rows[id]))
      && (forall id :: id in r.rows && id !in st.store.rows ==> st.store.nextId <= id && NewRowFor(list, now, r.rows[id]))
    decreases |list|
  {
    if |list| > 0 {
      var first := AddOne(snap, bound, st, list[0], fetch, now);
      var tail := list[1..];
      var s0, s1 := st.store, first.0.store;
      assert SnapshotOf(snap, bound, s1);
      AddAllRows(snap, bound, first.0, tail, fetch, now);
      var r := AddAll(snap, bound, first.0, tail, fetch, now).state.store;
      assert r == AddAll(snap, bound, st, list, fetch, now).state.store;
      assert list[0] in list;
      forall item | item in tail ensures item in list {}
      forall id | id in s0.rows
        ensures r.rows[id] == s0.rows[id] || Refreshed(snap, list, id, r.rows[id])
      {
        if s1.rows[id] != s0.rows[id] {
          assert Refreshed(snap, list, id, s1.rows[id]);
        }
      }
      forall id | id in r.rows && id !in s0.rows
        ensures s0.nextId <= id && NewRowFor(list, now, r.rows[id])
      {
        if id in s1.rows {
          assert r.rows[id] == s1.rows[id] || Refreshed(snap, tail, id, r.rows[id]);
          assert id !in snap;
          assert r.rows[id] == NewPlaylist(list[0], now);
        }
      }
    }
  }

  /**
   * A saved row carrying browse id `b`, whose snapshot row (if any) carries `b` too, still
   * carries `b` and is still saved after the additions.
   */
  lemma KeepsCarriedRow(snap: map<LocalId, Playlist>, bound: nat, st: PlaylistState, list: seq<PlaylistItem>,
                        fetch: Id -> Result<seq<SongItem>>, now: Timestamp, id: LocalId, b: Id)
    requires SnapshotOf(snap, bound, st.store)
    requires id in st.store.rows && st.store.rows[id].browseId == Some(b) && st.store.rows[id].bookmarkedAt.Some?
    requires id in snap ==> snap[id].browseId == Some(b)
    ensures var rows := AddAll(snap, bound, st, list, fetch, now).state.store.rows;
      id in rows && rows[id].browseId == Some(b) && rows[id].bookmarkedAt.Some?
  {
    AddAllRows(snap, bound, st, list, fetch, now);
  }

  /**
   * The j-th content sync is for the j-th listed playlist, into a saved local playlist that ends
   * up carrying that playlist's browse id.
   */
  lemma {:induction false} AddAllCalls(snap: map<LocalId, Playlist>, bound: nat, st: PlaylistState, list: seq<PlaylistItem>,
                                       fetch: Id -> Result<seq<SongItem>>, now: Timestamp)
    requires SnapshotOf(snap, bound, st.store)
    ensures var r := AddAll(snap, bound, st, list, fetch, now);
      forall j :: 0 <= j < |list| ==>
        && r.calls[j].browseId == list[j].id
        && r.calls[j].playlistId in r.state.store.rows
        && r.state.store.rows[r.calls[j].playlistId].browseId == Some(list[j].id)
        && r.state.store.rows[r.calls[j].playlistId].bookmarkedAt.Some?
    decreases |list|
  {
    if |list| > 0 {
      var first := AddOne(snap, bound, st, list[0], fetch, now);
      var tail := list[1..];
      var id := first.1.playlistId;
      assert SnapshotOf(snap, bound, first.0.store);
      assert id in snap ==> snap[id].browseId == Some(list[0].id);
      KeepsCarriedRow(snap, bound, first.0, tail, fetch, now, id, list[0].id);
      AddAllCalls(snap, bound, first.0, tail, fetch, now);
      var rest := AddAll(snap, bound, first.0, tail, fetch, now);
      var r := AddAll(snap, bound, st, list, fetch, now);
      assert r.state == rest.state && r.calls == [first.1] + rest.calls;
      forall j | 0 <= j < |list|
        ensures r.calls[j].browseId == list[j].id
        ensures r.calls[j].playlistId in r.state.store.rows
        ensures r.state.store.rows[r.calls[j].playlistId].browseId == Some(list[j].id)
        ensures r.state.store.rows[r.calls[j].playlistId].bookmarkedAt.Some?
      {
        if j > 0 {
          assert r.calls[j] == rest.calls[j - 1] && list[j] == tail[j - 1];
        }
      }
    }
  }

  /** The memberships after the additions: exactly those of playlists no successful sync cleared. */
  lemma {:induction false} AddAllMemberships(snap: map<LocalId, Playlist>, bound: nat, st: PlaylistState, list: seq<PlaylistItem>,
                                             fetch: Id -> Result<seq<SongItem>>, now: Timestamp)
    ensures var r := AddAll(snap, bound, st, list, fetch, now);
      forall m :: m in r.state.memberships <==> m in st.memberships && m.playlistId !in Cleared(r.calls, fetch)
    decreases |list|
  {
    if |list| > 0 {
      var first := AddOne(snap, bound, st, list[0], fetch, now);
      AddAllMemberships(snap, bound, first.0, list[1..], fetch, now);
      var rest := AddAll(snap, bound, first.0, list[1..], fetch, now);
      var r := AddAll(snap, bound, st, list, fetch, now);
      assert r.calls == [first.1] + rest.calls;
      forall m: PlaylistSongMap ensures m.playlistId in Cleared(r.calls, fetch) <==>
        (fetch(first.1.browseId).Success? && m.playlistId == first.1.playlistId) || m.playlistId in Cleared(rest.calls, fetch)
      {
        if m.playlistId in Cleared(rest.calls, fetch) {
          var j :| 0 <= j < |rest.calls| && fetch(rest.calls[j].browseId).Success? && rest.calls[j].playlistId == m.playlistId;
          assert r.calls[j + 1] == rest.calls[j];
        }
        if fetch(first.1.browseId).Success? && m.playlistId == first.1.playlistId {
          assert r.calls[0] == first.1;
        }
      }
    }
  }

  /** The list the pass works through holds exactly the section's unreserved playlists. */
  lemma PlaylistListElements(page: seq<LibraryItem>)
    ensures forall x :: x in PlaylistList(page) <==> x in Instances(page, PlaylistOf) && !IsReserved(x.id)
    ensures PlaylistIds(PlaylistList(page)) == ListedIds(page)
  {
    var list := PlaylistList(page);
    ReverseElements(WithoutReserved(Instances(page, PlaylistOf)));
    forall id | id in ListedIds(page) ensures id in PlaylistIds(list)
    {
      var x :| x in Instances(page, PlaylistOf) && !IsReserved(x.id) && x.id == id;
      var j :| 0 <= j < |list| && list[j] == x;
    }
  }

  /** The state the additions start from, and what they are known to do. */
  lemma PassSetup(st: PlaylistState, page: seq<LibraryItem>, fetch: Id -> Result<seq<SongItem>>, now: Timestamp)
    requires Valid(st.store)
    ensures var list := PlaylistList(page);
      var snap := Saved(st.store.rows);
      var mid := st.(store := st.store.(rows := Unsave(st.store.rows, StaleSaved(snap, PlaylistIds(list)), now)));
      && SnapshotOf(snap, st.store.nextId, mid.store)
      && SavedPlaylistsPass(st, Success(page), fetch, now) == AddAll(snap, st.store.nextId, mid, list, fetch, now)
  {
  }

  /**
   * The pass deletes no row and keeps local ids fresh; a playlist that only exists locally is
   * left as it was, and every new row is the saved row of a listed playlist.
   */
  lemma SavedPlaylistsKeepRows(st: PlaylistState, page: seq<LibraryItem>, fetch: Id -> Result<seq<SongItem>>, now: Timestamp)
    requires Valid(st.store)
    ensures var r := SavedPlaylistsPass(st, Success(page), fetch, now).state.store;
      && Valid(r)
      && st.store.rows.Keys <= r.rows.Keys
      && (forall id :: id in st.store.rows && st.store.rows[id].browseId.None? ==> r.rows[id] == st.store.rows[id])
      && (forall id :: id in r.rows && id !in st.store.rows ==>
            exists item :: item in PlaylistList(page) && r.rows[id] == NewPlaylist(item, now))
  {
    var list := PlaylistList(page);
    var snap := Saved(st.store.rows);
    var mid := st.(store := st.store.(rows := Unsave(st.store.rows, StaleSaved(snap, PlaylistIds(list)), now)));
    PassSetup(st, page, fetch, now);
    AddAllRows(snap, st.store.nextId, mid, list, fetch, now);
  }

  /**
   * A saved playlist whose browse id the section no longer lists is un-saved, and nothing else
   * about it changes.
   */
  lemma SavedPlaylistsUnsaveStale(st: PlaylistState, page: seq<LibraryItem>, fetch: Id -> Result<seq<SongItem>>, now: Timestamp)
    requires Valid(st.store)
    ensures var r := SavedPlaylistsPass(st, Success(page), fetch, now).state.store;
      forall id :: id in st.store.rows && st.store.rows[id].bookmarkedAt.Some? && st.store.rows[id].browseId.Some?
                   && st.store.rows[id].browseId.value !in ListedIds(page) ==>
        id in r.rows && r.rows[id] == ToggleBookmark(st.store.rows[id], now) && r.rows[id].bookmarkedAt.None?
  {
    var list := PlaylistList(page);
    var snap := Saved(st.store.rows);
    var mid := st.(store := st.store.(rows := Unsave(st.store.rows, StaleSaved(snap, PlaylistIds(list)), now)));
    PassSetup(st, page, fetch, now);
    AddAllRows(snap, st.store.nextId, mid, list, fetch, now);
    PlaylistListElements(page);
  }

  /**
   * No row for a reserved browse id is inserted, and such a row's metadata is never refreshed.
   * Because the reserved ids are dropped before the removal step, a saved row carrying one counts
   * as no longer listed: every successful pass un-saves it.
   */
  lemma SavedPlaylistsReserved(st: PlaylistState, page: seq<LibraryItem>, fetch: Id -> Result<seq<SongItem>>, now: Timestamp)
    requires Valid(st.store)
    ensures var r := SavedPlaylistsPass(st, Success(page), fetch, now).state.store;
      forall id :: id in r.rows && r.rows[id].browseId.Some? && IsReserved(r.rows[id].browseId.value) ==>
        && id in st.store.rows
        && r.rows[id].browseId == st.store.rows[id].browseId
        && r.rows[id].meta == st.store.rows[id].meta
    ensures var r := SavedPlaylistsPass(st, Success(page), fetch, now).state.store;
      forall id :: id in st.store.rows && st.store.rows[id].bookmarkedAt.Some? && st.store.rows[id].browseId.Some?
                   && IsReserved(st.store.rows[id].browseId.value) ==>
        id in r.rows && r.rows[id].bookmarkedAt.None?
  {
    SavedPlaylistsUnsaveStale(st, page, fetch, now);
    var list := PlaylistList(page);
    var snap := Saved(st.store.rows);
    var mid := st.(store := st.store.(rows := Unsave(st.store.rows, StaleSaved(snap, PlaylistIds(list)), now)));
    PassSetup(st, page, fetch, now);
    AddAllRows(snap, st.store.nextId, mid, list, fetch, now);
    PlaylistListElements(page);
  }

  /** After the pass the saved playlists with a browse id are exactly the listed ones. */
  lemma SavedPlaylistsConverge(st: PlaylistState, page: seq<LibraryItem>, fetch: Id -> Result<seq<SongItem>>, now: Timestamp)
    requires Valid(st.store)
    ensures SavedBrowseIds(SavedPlaylistsPass(st, Success(page), fetch, now).state.store.rows) == ListedIds(page)
  {
    ListedAreSaved(st, page, fetch, now);
    SavedAreListed(st, page, fetch, now);
  }

  /** Every listed playlist ends up saved under its browse id. */
  lemma ListedAreSaved(st: PlaylistState, page: seq<LibraryItem>, fetch: Id -> Result<seq<SongItem>>, now: Timestamp)
    requires Valid(st.store)
    ensures ListedIds(page) <= SavedBrowseIds(SavedPlaylistsPass(st, Success(page), fetch, now).state.store.rows)
  {
    var list := PlaylistList(page);
    var snap := Saved(st.store.rows);
    var mid := st.(store := st.store.(rows := Unsave(st.store.rows, StaleSaved(snap, PlaylistIds(list)), now)));
    PassSetup(st, page, fetch, now);
    AddAllCalls(snap, st.store.nextId, mid, list, fetch, now);
    PlaylistListElements(page);
    var r := SavedPlaylistsPass(st, Success(page), fetch, now).state.store;
    forall b | b in ListedIds(page) ensures b in SavedBrowseIds(r.rows)
    {
      var j :| 0 <= j < |list| && list[j].id == b;
    }
  }

  /** Every saved playlist with a browse id after the pass is a listed one. */
  lemma SavedAreListed(st: PlaylistState, page: seq<LibraryItem>, fetch: Id -> Result<seq<SongItem>>, now: Timestamp)
    requires Valid(st.store)
    ensures SavedBrowseIds(SavedPlaylistsPass(st, Success(page), fetch, now).state.store.rows) <= ListedIds(page)
  {
    var list := PlaylistList(page);
    var snap := Saved(st.store.rows);
    var mid := st.(store := st.store.(rows := Unsave(st.store.rows, StaleSaved(snap, PlaylistIds(list)), now)));
    PassSetup(st, page, fetch, now);
    AddAllRows(snap, st.store.nextId, mid, list, fetch, now);
    PlaylistListElements(page);
    var r := SavedPlaylistsPass(st, Success(page), fetch, now).state.store;
    forall b | b in SavedBrowseIds(r.rows) ensures b in ListedIds(page)
    {
      var id :| id in r.rows && r.rows[id].bookmarkedAt.Some? && r.rows[id].browseId == Some(b);
      if id in st.store.rows && r.rows[id] == mid.store.rows[id] {
        assert id !in StaleSaved(snap, PlaylistIds(list));
      }
    }
  }

  /**
   * The pass syncs the content of each listed playlist once, in the order it works through
   * them, into a saved local playlist carrying that playlist's browse id.
   */
  lemma SavedPlaylistsSyncCalls(st: PlaylistState, page: seq<LibraryItem>, fetch: Id -> Result<seq<SongItem>>, now: Timestamp)
    requires Valid(st.store)
    ensures var r := SavedPlaylistsPass(st, Success(page), fetch, now);
      var list := PlaylistList(page);
      var rows := r.state.store.rows;
      && |r.calls| == |list|
      && forall j :: 0 <= j < |list| ==>
           && r.calls[j].browseId == list[j].id
           && r.calls[j].playlistId in rows
           && rows[r.calls[j].playlistId].browseId == Some(list[j].id)
           && rows[r.calls[j].playlistId].bookmarkedAt.Some?
  {
    var list := PlaylistList(page);
    var snap := Saved(st.store.rows);
    var mid := st.(store := st.store.(rows := Unsave(st.store.rows, StaleSaved(snap, PlaylistIds(list)), now)));
    PassSetup(st, page, fetch, now);
    AddAllCalls(snap, st.store.nextId, mid, list, fetch, now);
  }

  /**
   * The membership rows left are those of playlists that no successful content sync of the pass
   * touched; a failed section fetch leaves them all.
   */
  lemma SavedPlaylistsMemberships(st: PlaylistState, fetched: Result<seq<LibraryItem>>, fetch: Id -> Result<seq<SongItem>>, now: Timestamp)
    ensures var r := SavedPlaylistsPass(st, fetched, fetch, now);
      forall m :: m in r.state.memberships <==> m in st.memberships && m.playlistId !in Cleared(r.calls, fetch)
  {
    if fetched.Success? {
      var list := PlaylistList(fetched.value);
      var snap := Saved(st.store.rows);
      var mid := st.(store := st.store.(rows := Unsave(st.store.rows, StaleSaved(snap, PlaylistIds(list)), now)));
      AddAllMemberships(snap, st.store.nextId, mid, list, fetch, now);
    }
  }
}

=== FILE: race.dfy ===
/**
 * `syncAll` launches the liked-songs and library-songs passes side by side, and both write song
 * rows. Each pass writes back a whole row it read earlier (`update(song.localToggleLike())`,
 * `update(song.toggleLibrary())`), so when both read a row before either writes it, the later
 * write puts back the marker the earlier one had changed. This module plays the two
 * read-modify-write tasks on one row, step by step, and sets against them the update the rest of
 * the model applies: each toggle taken on the row as it stands at that moment.
 */
module SongRace {
  import opened Wrappers
  import opened Types
  import opened Entities

  /** The two tasks writing one song row: the liked-songs pass and the library-songs pass. */
  datatype Task = LikeTask | LibraryTask

  /** A step of a task: reading the row, or writing back its toggle of what it read. */
  datatype Step = Read(task: Task) | Write(task: Task)

  /** The shared row and the copy each task read last. */
  datatype Race = Race(row: Song, likeCopy: Option<Song>, libraryCopy: Option<Song>)

  /** The row a task writes for a row it read. */
  function Update(t: Task, s: Song, exit: LibraryExit, now: Timestamp): (r: Song)
    ensures r.title == s.title
    ensures t == LikeTask ==> r.liked == !s.liked && r.inLibrary == s.inLibrary
    ensures t == LibraryTask ==> r.inLibrary.Some? == s.inLibrary.None?
    ensures t == LibraryTask && (s.inLibrary.None? || exit == KeepsLike) ==> r.liked == s.liked
  {
    match t
    case LikeTask => LocalToggleLike(s, now)
    case LibraryTask => ToggleLibrary(s, exit, now)
  }

  /** The copy task `t` read last, if any. */
  function CopyOf(r: Race, t: Task): Option<Song>
  {
    if t == LikeTask then r.likeCopy else r.libraryCopy
  }

  /**
   * One step as the source runs it: a read copies the row; a write stores the toggle of the
   * task's own copy, whatever the row has become since; a write with no read before it does
   * nothing.
   */
  function Step1(r: Race, step: Step, exit: LibraryExit, now: Timestamp): (out: Race)
    ensures step.Read? ==> out.row == r.row && CopyOf(out, step.task) == Some(r.row)
    ensures step.Write? && CopyOf(r, step.task).Some? ==> out.row == Update(step.task, CopyOf(r, step.task).value, exit, now)
  {
    match step
    case Read(t) => if t == LikeTask then r.(likeCopy := Some(r.row)) else r.(libraryCopy := Some(r.row))
    case Write(t) => if CopyOf(r, t).Some? then r.(row := Update(t, CopyOf(r, t).value, exit, now)) else r
  }

  /** A schedule of steps, first step first, as the source runs them. */
  function RunAsWritten(r: Race, steps: seq<Step>, exit: LibraryExit, now: Timestamp): (out: Race)
    ensures (forall i :: 0 <= i < |steps| ==> steps[i].Read?) ==> out.row == r.row
    decreases |steps|
  {
    if |steps| == 0 then r else RunAsWritten(Step1(r, steps[0], exit, now), steps[1..], exit, now)
  }

  /**
   * Run one after the other, each task reading the row just before writing it, the schedule as
   * written gives the same row as the atomic update: only interleaved reads lose an update.
   */
  lemma SerialIsAtomic(s: Song, a: Task, b: Task, exit: LibraryExit, now: Timestamp)
    ensures RunAsWritten(Race(s, None, None), [Read(a), Write(a), Read(b), Write(b)], exit, now).row
         == RunAtomic(s, [a, b], exit, now)
  {
    var steps := [Read(a), Write(a), Read(b), Write(b)];
    var r1 := Step1(Race(s, None, None), Read(a), exit, now);
    var r2 := Step1(r1, Write(a), exit, now);
    var r3 := Step1(r2, Read(b), exit, now);
    var r4 := Step1(r3, Write(b), exit, now);
    assert r2.row == Update(a, s, exit, now);
    assert CopyOf(r3, b) == Some(r2.row);
    assert r4.row == Update(b, Update(a, s, exit, now), exit, now);
    assert RunAsWritten(Race(s, None, None), steps, exit, now) == RunAsWritten(r1, steps[1..], exit, now);
    assert steps[1..] == [Write(a), Read(b), Write(b)];
    assert RunAsWritten(r1, steps[1..], exit, now) == RunAsWritten(r2, [Read(b), Write(b)], exit, now);
    assert RunAsWritten(r2, [Read(b), Write(b)], exit, now) == RunAsWritten(r3, [Write(b)], exit, now);
    assert RunAsWritten(r3, [Write(b)], exit, now) == RunAsWritten(r4, [], exit, now);
    assert [a, b][1..] == [b];
    assert RunAtomic(s, [a, b], exit, now) == RunAtomic(Update(a, s, exit, now), [b], exit, now);
    assert RunAtomic(Update(a, s, exit, now), [b], exit, now) == Update(b, Update(a, s, exit, now), exit, now);
  }

  /**
   * When both tasks read the row before either writes, the second write wins outright: the row
   * ends as the second task alone would have left it, and the first task's update is lost.
   */
  lemma LostUpdate(s: Song, first: Task, second: Task, exit: LibraryExit, now: Timestamp)
    requires first != second
    ensures RunAsWritten(Race(s, None, None), [Read(first), Read(second), Write(first), Write(second)], exit, now).row
         == Update(second, s, exit, now)
  {
    var steps := [Read(first), Read(second), Write(first), Write(second)];
    var r1 := Step1(Race(s, None, None), Read(first), exit, now);
    var r2 := Step1(r1, Read(second), exit, now);
    var r3 := Step1(r2, Write(first), exit, now);
    var r4 := Step1(r3, Write(second), exit, now);
    assert CopyOf(r3, second) == Some(s);
    assert r4.row == Update(second, s, exit, now);
    assert RunAsWritten(Race(s, None, None), steps, exit, now) == RunAsWritten(r1, steps[1..], exit, now);
    assert steps[1..] == [Read(second), Write(first), Write(second)];
    assert RunAsWritten(r1, steps[1..], exit, now) == RunAsWritten(r2, [Write(first), Write(second)], exit, now);
    assert RunAsWritten(r2, [Write(first), Write(second)], exit, now) == RunAsWritten(r3, [Write(second)], exit, now);
    assert RunAsWritten(r3, [Write(second)], exit, now) == RunAsWritten(r4, [], exit, now);
  }

  /**
   * A song that is neither liked nor in the library, listed both on "LM" and in the library
   * section: run one after the other, the two passes leave it liked and in the library; with both
   * reads first, the library write comes last and the like is gone.
   */
  lemma LikeLostToLibraryWrite(exit: LibraryExit, now: Timestamp)
    ensures var s := Song("", false, None, None);
      var raced := RunAsWritten(Race(s, None, None), [Read(LikeTask), Read(LibraryTask), Write(LikeTask), Write(LibraryTask)], exit, now).row;
      var oneByOne := RunAsWritten(Race(s, None, None), [Read(LikeTask), Write(LikeTask), Read(LibraryTask), Write(LibraryTask)], exit, now).row;
      && oneByOne.liked && oneByOne.inLibrary.Some?
      && !raced.liked && raced.inLibrary.Some?
  {
    var s := Song("", false, None, None);
    LostUpdate(s, LikeTask, LibraryTask, exit, now);
  }

  /**
   * The update the rest of the model applies: each task reads and writes the row in one step, so
   * every toggle is taken on the row as it stands. A row no library task touched keeps its
   * library marker; one no like task touched keeps its like unless a library task took it out of
   * the library under `ClearsLike`.
   */
  function RunAtomic(s: Song, tasks: seq<Task>, exit: LibraryExit, now: Timestamp): (r: Song)
    ensures r.title == s.title
    ensures LibraryTask !in tasks ==> r.inLibrary == s.inLibrary
    ensures LikeTask !in tasks && exit == KeepsLike ==> r.liked == s.liked
    decreases |tasks|
  {
    if |tasks| == 0 then s
    else
      assert forall t :: t in tasks[1..] ==> t in tasks;
      RunAtomic(Update(tasks[0], s, exit, now), tasks[1..], exit, now)
  }

  /**
   * With atomic updates neither pass erases the other's marker: both orders give the same row,
   * liked and library marker both flipped, whenever the library toggle keeps the like (it always
   * does when it adds the song to the library).
   */
  lemma AtomicKeepsBothUpdates(s: Song, exit: LibraryExit, now: Timestamp)
    requires s.inLibrary.None? || exit == KeepsLike
    ensures RunAtomic(s, [LikeTask, LibraryTask], exit, now) == RunAtomic(s, [LibraryTask, LikeTask], exit, now)
    ensures RunAtomic(s, [LikeTask, LibraryTask], exit, now).liked == !s.liked
    ensures RunAtomic(s, [LikeTask, LibraryTask], exit, now).inLibrary.Some? == s.inLibrary.None?
  {
    assert [LikeTask, LibraryTask][1..] == [LibraryTask];
    assert [LibraryTask, LikeTask][1..] == [LikeTask];
  }
}

=== FILE: reconcile.dfy ===
/**
 * The diff-and-upsert algorithm shared by the liked-songs, library-songs, liked-albums and
 * subscribed-artists passes of `SyncUtils`. A pass first clears the membership marker of every
 * local member missing from the remote list (rows are never deleted), then walks the remote
 * items in the given order and, per item, inserts a new marked row, sets the marker of an
 * unmarked row, or does nothing. The in-flight concurrency of the source only fans out over
 * distinct ids, so the items are processed one after the other.
 */
module Reconcile {
  import opened Wrappers
  import opened Types
  import opened Seqs

  /**
   * What distinguishes one collection from another: how a remote item is keyed, which field is
   * the membership marker, the entity's toggle (`localToggleLike`, `toggleLibrary`), and the row
   * inserted for a remote item not known locally. `create` answers `None` when the item must be
   * skipped altogether (an album whose detail fetch failed).
   */
  datatype Kind<!I, !E> = Kind(
    idOf: I -> Id,
    marked: E -> bool,
    toggle: (E, Timestamp) -> E,
    create: (I, Timestamp) -> Option<E>)

  /** Whether an item is handled at all; by `Lawful` this does not depend on the clock. */
  predicate Accepts<I(!new), E(!new)>(k: Kind<I, E>, item: I)
  {
    k.create(item, 0).Some?
  }

  /** The laws every collection obeys: toggling flips the marker, and new rows come marked. */
  ghost predicate Lawful<I(!new), E(!new)>(k: Kind<I, E>)
  {
    && (forall e, t :: k.marked(k.toggle(e, t)) != k.marked(e))
    && (forall i, t :: k.create(i, t).Some? ==> k.marked(k.create(i, t).value))
    && (forall i, t :: k.create(i, t).Some? == Accepts(k, i))
  }

  /** The ids of a remote list, in order. */
  function Ids<I(!new), E(!new)>(k: Kind<I, E>, items: seq<I>): (ids: seq<Id>)
    ensures |ids| == |items|
    ensures forall i :: 0 <= i < |items| ==> ids[i] == k.idOf(items[i])
  {
    if |items| == 0 then [] else [k.idOf(items[0])] + Ids(k, items[1..])
  }

  /** The ids of a remote list, as a set (`songs.map(SongItem::id)` used with `in`). */
  function IdSet<I(!new), E(!new)>(k: Kind<I, E>, items: seq<I>): set<Id>
  {
    set j | 0 <= j < |items| :: k.idOf(items[j])
  }

  /** The ids of the remote items that are not skipped. */
  function AcceptedIds<I(!new), E(!new)>(k: Kind<I, E>, items: seq<I>): (ids: set<Id>)
    ensures ids <= IdSet(k, items)
  {
    set j | 0 <= j < |items| && Accepts(k, items[j]) :: k.idOf(items[j])
  }

  /** The ids whose row currently carries the membership marker. */
  function MarkedIds<I(!new), E(!new)>(k: Kind<I, E>, store: map<Id, E>): set<Id>
  {
    set id | id in store && k.marked(store[id])
  }

  /** The local members missing from the remote set: the rows the removal step toggles. */
  function Stale<I(!new), E(!new)>(k: Kind<I, E>, store: map<Id, E>, remote: set<Id>): (ids: set<Id>)
    ensures ids <= MarkedIds(k, store)
    ensures ids !! remote
  {
    set id | id in store && k.marked(store[id]) && id !in remote
  }

  /**
   * The removal step: every stale member is toggled (so un-marked); no row is removed and no
   * other row changes.
   */
  function Unmark<I(!new), E(!new)>(k: Kind<I, E>, store: map<Id, E>, remote: set<Id>, now: Timestamp): (r: map<Id, E>)
    ensures r.Keys == store.Keys
    ensures Lawful(k) ==> MarkedIds(k, r) == MarkedIds(k, store) * remote
    ensures forall id :: id in store && id !in Stale(k, store, remote) ==> r[id] == store[id]
  {
    map id | id in store :: if id in Stale(k, store, remote) then k.toggle(store[id], now) else store[id]
  }

  /** One write of the addition phase. */
  datatype Write = Insert(id: Id) | SetMarker(id: Id)

  /** The ids touched by a write log, in order. */
  function WriteIds(w: seq<Write>): (ids: seq<Id>)
    ensures |ids| == |w|
    ensures forall i :: 0 <= i < |w| ==> ids[i] == w[i].id
  {
    if |w| == 0 then [] else [w[0].id] + WriteIds(w[1..])
  }

  /** The ids a write log inserts. */
  function Inserted(w: seq<Write>): set<Id>
  {
    set x | x in w && x.Insert? :: x.id
  }

  /** The ids whose marker a write log sets on an existing row. */
  function Remarked(w: seq<Write>): set<Id>
  {
    set x | x in w && x.SetMarker? :: x.id
  }

  /**
   * The per-item decision (one transaction in the source): insert a marked row if the id is
   * unknown, set the marker if the known row lacks it, otherwise write nothing. A skipped item
   * writes nothing; only the item's own row can change, and it ends marked.
   */
  function Upsert<I(!new), E(!new)>(k: Kind<I, E>, store: map<Id, E>, item: I, now: Timestamp): (r: (map<Id, E>, seq<Write>))
    ensures k.create(item, now).None? ==> r == (store, [])
    ensures k.idOf(item) in store && k.marked(store[k.idOf(item)]) ==> r == (store, [])
    ensures r.1 != [] ==> k.idOf(item) in r.0 && r.0 == store[k.idOf(item) := r.0[k.idOf(item)]]
    ensures Lawful(k) && k.create(item, now).Some? ==> k.idOf(item) in r.0 && k.marked(r.0[k.idOf(item)])
    ensures r.1 == [] || r.1 == [if k.idOf(item) in store then SetMarker(k.idOf(item)) else Insert(k.idOf(item))]
    ensures r.0 == store || (k.idOf(item) in r.0 && r.0 == store[k.idOf(item) := r.0[k.idOf(item)]])
    ensures Lawful(k) ==> (r.1 == [] <==> r.0 == store)
    ensures r.1 != [] && k.idOf(item) in store ==> k.idOf(item) in r.0 && r.0[k.idOf(item)] == k.toggle(store[k.idOf(item)], now)
    ensures r.1 != [] && k.idOf(item) !in store ==> k.idOf(item) in r.0 && k.create(item, now) == Some(r.0[k.idOf(item)])
  {
    var id := k.idOf(item);
    match k.create(item, now)
    case None => (store, [])
    case Some(row) =>
      if id !in store then (store[id := row], [Insert(id)])
      else if !k.marked(store[id]) then (store[id := k.toggle(store[id], now)], [SetMarker(id)])
      else (store, [])
  }

  /** The addition phase: every item in turn, first item first. */
  function UpsertAll<I(!new), E(!new)>(k: Kind<I, E>, store: map<Id, E>, items: seq<I>, now: Timestamp): (r: (map<Id, E>, seq<Write>))
    ensures store.Keys <= r.0.Keys
    ensures |r.1| <= |items|
    decreases |items|
  {
    if |items| == 0 then (store, [])
    else
      var first := Upsert(k, store, items[0], now);
      var rest := UpsertAll(k, first.0, items[1..], now);
      (rest.0, first.1 + rest.1)
  }

  /**
   * What one pass leaves behind: the reconciled store, the ids the removal step un-marked, and
   * the writes of the addition phase in the order they happened.
   */
  datatype PassResult<E> = PassResult(store: map<Id, E>, unmarked: set<Id>, writes: seq<Write>)

  /** A pass that writes nothing. */
  function Untouched<E>(store: map<Id, E>): PassResult<E>
  {
    PassResult(store, {}, [])
  }

  /**
   * One reconciliation pass against a remote list already in processing order. No row is
   * deleted and there is at most one write per item; only members missing from the list are
   * un-marked (`PassRows`), and a member still listed is left exactly as it was
   * (`PassKeepsListed`).
   */
  function Pass<I(!new), E(!new)>(k: Kind<I, E>, store: map<Id, E>, items: seq<I>, now: Timestamp): (r: PassResult<E>)
    ensures store.Keys <= r.store.Keys
    ensures |r.writes| <= |items|
  {
    var remote := IdSet(k, items);
    var added := UpsertAll(k, Unmark(k, store, remote, now), items, now);
    PassResult(added.0, Stale(k, store, remote), added.1)
  }

  // ---------------------------------------------------------------------------------------------
  // Properties of the addition phase

  /** The addition phase never writes a row that already carries the marker. */
  lemma {:induction false} UpsertAllKeepsMarked<I(!new), E(!new)>(k: Kind<I, E>, store: map<Id, E>, items: seq<I>, now: Timestamp)
    ensures forall id :: id in store && k.marked(store[id]) ==> UpsertAll(k, store, items, now).0[id] == store[id]
    decreases |items|
  {
    if |items| > 0 {
      var first := Upsert(k, store, items[0], now);
      UpsertAllKeepsMarked(k, first.0, items[1..], now);
      forall id | id in store && k.marked(store[id]) ensures id in first.0 && first.0[id] == store[id] {
      }
    }
  }

  /** Splitting off the first item splits the accepted ids the same way. */
  lemma AcceptedIdsCons<I(!new), E(!new)>(k: Kind<I, E>, items: seq<I>)
    requires |items| > 0
    ensures AcceptedIds(k, items)
         == (if Accepts(k, items[0]) then {k.idOf(items[0])} else {}) + AcceptedIds(k, items[1..])
  {
    var tail := items[1..];
    forall id | id in AcceptedIds(k, items)
      ensures id in (if Accepts(k, items[0]) then {k.idOf(items[0])} else {}) + AcceptedIds(k, tail)
    {
      var j :| 0 <= j < |items| && Accepts(k, items[j]) && k.idOf(items[j]) == id;
      if j > 0 {
        assert tail[j - 1] == items[j];
      }
    }
    forall id | id in AcceptedIds(k, tail) ensures id in AcceptedIds(k, items) {
      var j :| 0 <= j < |tail| && Accepts(k, tail[j]) && k.idOf(tail[j]) == id;
      assert items[j + 1] == tail[j];
    }
  }

  /** Splitting off the first item splits the id set the same way. */
  lemma IdSetCons<I(!new), E(!new)>(k: Kind<I, E>, items: seq<I>)
    requires |items| > 0
    ensures IdSet(k, items) == {k.idOf(items[0])} + IdSet(k, items[1..])
  {
    var tail := items[1..];
    forall id | id in IdSet(k, items) ensures id in {k.idOf(items[0])} + IdSet(k, tail) {
      var j :| 0 <= j < |items| && k.idOf(items[j]) == id;
      if j > 0 {
        assert tail[j - 1] == items[j];
      }
    }
    forall id | id in IdSet(k, tail) ensures id in IdSet(k, items) {
      var j :| 0 <= j < |tail| && k.idOf(tail[j]) == id;
      assert items[j + 1] == tail[j];
    }
  }

  /**
   * The addition phase row by row: a known row changes only when it lacks the marker and its id
   * is among the accepted remote ids, and then it is toggled once; the new rows are exactly the
   * accepted ids not known before, and each comes marked.
   */
  lemma {:induction false} UpsertAllRows<I(!new), E(!new)>(k: Kind<I, E>, store: map<Id, E>, items: seq<I>, now: Timestamp)
    requires Lawful(k)
    ensures UpsertAll(k, store, items, now).0.Keys == store.Keys + AcceptedIds(k, items)
    ensures forall id :: id in store ==>
      UpsertAll(k, store, items, now).0[id]
        == (if !k.marked(store[id]) && id in AcceptedIds(k, items) then k.toggle(store[id], now) else store[id])
    ensures forall id :: id in UpsertAll(k, store, items, now).0 && id !in store ==>
      k.marked(UpsertAll(k, store, items, now).0[id])
    decreases |items|
  {
    if |items| > 0 {
      var first := Upsert(k, store, items[0], now);
      var id0 := k.idOf(items[0]);
      UpsertAllRows(k, first.0, items[1..], now);
      AcceptedIdsCons(k, items);
      assert k.create(items[0], now).Some? == Accepts(k, items[0]);
    }
  }

  /**
   * Each id is written at most once by the addition phase, and only an id that was unknown or
   * unmarked when the phase began.
   */
  lemma {:induction false} UpsertAllWritesOnce<I(!new), E(!new)>(k: Kind<I, E>, store: map<Id, E>, items: seq<I>, now: Timestamp)
    requires Lawful(k)
    ensures Distinct(WriteIds(UpsertAll(k, store, items, now).1))
    ensures forall x :: x in WriteIds(UpsertAll(k, store, items, now).1) ==> x !in store || !k.marked(store[x])
    decreases |items|
  {
    if |items| > 0 {
      var first := Upsert(k, store, items[0], now);
      var rest := UpsertAll(k, first.0, items[1..], now);
      var id0 := k.idOf(items[0]);
      UpsertAllWritesOnce(k, first.0, items[1..], now);
      assert k.create(items[0], now).Some? == Accepts(k, items[0]);
      assert UpsertAll(k, store, items, now).1 == first.1 + rest.1;
      if first.1 == [] {
        assert first.0 == store;
      } else {
        assert k.marked(first.0[id0]);
        assert id0 !in WriteIds(rest.1);
        assert WriteIds(first.1 + rest.1) == [id0] + WriteIds(rest.1);
        forall x | x in WriteIds(rest.1) ensures x !in store || !k.marked(store[x]) {
          assert x != id0;
        }
      }
    }
  }

  /** The writes of the addition phase happen in the order of the items. */
  lemma {:induction false} UpsertAllWritesInOrder<I(!new), E(!new)>(k: Kind<I, E>, store: map<Id, E>, items: seq<I>, now: Timestamp)
    ensures IsSubseq(WriteIds(UpsertAll(k, store, items, now).1), Ids(k, items))
    decreases |items|
  {
    if |items| > 0 {
      var first := Upsert(k, store, items[0], now);
      var rest := UpsertAll(k, first.0, items[1..], now);
      var id0 := k.idOf(items[0]);
      UpsertAllWritesInOrder(k, first.0, items[1..], now);
      assert UpsertAll(k, store, items, now).1 == first.1 + rest.1;
      assert Ids(k, items) == [id0] + Ids(k, items[1..]);
      if first.1 == [] {
        assert first.1 + rest.1 == rest.1;
        SubseqCons(WriteIds(rest.1), Ids(k, items[1..]), id0);
      } else {
        assert WriteIds(first.1 + rest.1) == [id0] + WriteIds(rest.1);
      }
    }
  }

  /** One item inserts exactly the new key, and re-marks its id exactly when its known row is unmarked. */
  lemma UpsertWriteSets<I(!new), E(!new)>(k: Kind<I, E>, store: map<Id, E>, item: I, now: Timestamp)
    requires Lawful(k)
    ensures Inserted(Upsert(k, store, item, now).1) == Upsert(k, store, item, now).0.Keys - store.Keys
    ensures Remarked(Upsert(k, store, item, now).1)
         == if k.idOf(item) in store && !k.marked(store[k.idOf(item)]) && k.create(item, now).Some?
            then {k.idOf(item)} else {}
  {
  }

  /**
   * The inserts of the addition phase are exactly its new rows, and the marker is set exactly on
   * the known unmarked rows whose id is accepted.
   */
  lemma UpsertAllWriteSets<I(!new), E(!new)>(k: Kind<I, E>, store: map<Id, E>, items: seq<I>, now: Timestamp)
    requires Lawful(k)
    ensures Inserted(UpsertAll(k, store, items, now).1) == UpsertAll(k, store, items, now).0.Keys - store.Keys
    ensures Remarked(UpsertAll(k, store, items, now).1)
         == set id | id in store && !k.marked(store[id]) && id in AcceptedIds(k, items)
  {
    UpsertAllInserted(k, store, items, now);
    UpsertAllRemarked(k, store, items, now);
  }

  /** The inserts of the addition phase are exactly its new rows. */
  lemma {:induction false} UpsertAllInserted<I(!new), E(!new)>(k: Kind<I, E>, store: map<Id, E>, items: seq<I>, now: Timestamp)
    requires Lawful(k)
    ensures Inserted(UpsertAll(k, store, items, now).1) == UpsertAll(k, store, items, now).0.Keys - store.Keys
    decreases |items|
  {
    if |items| > 0 {
      var first := Upsert(k, store, items[0], now);
      var rest := UpsertAll(k, first.0, items[1..], now);
      UpsertAllInserted(k, first.0, items[1..], now);
      UpsertWriteSets(k, store, items[0], now);
      assert UpsertAll(k, store, items, now) == (rest.0, first.1 + rest.1);
      assert Inserted(first.1 + rest.1) == Inserted(first.1) + Inserted(rest.1);
    }
  }

  /** The marker is set exactly on the known unmarked rows whose id is accepted. */
  lemma {:induction false} UpsertAllRemarked<I(!new), E(!new)>(k: Kind<I, E>, store: map<Id, E>, items: seq<I>, now: Timestamp)
    requires Lawful(k)
    ensures Remarked(UpsertAll(k, store, items, now).1)
         == set id | id in store && !k.marked(store[id]) && id in AcceptedIds(k, items)
    decreases |items|
  {
    if |items| > 0 {
      var first := Upsert(k, store, items[0], now);
      var rest := UpsertAll(k, first.0, items[1..], now);
      var id0 := k.idOf(items[0]);
      UpsertAllRemarked(k, first.0, items[1..], now);
      UpsertWriteSets(k, store, items[0], now);
      AcceptedIdsCons(k, items);
      assert k.create(items[0], now).Some? == Accepts(k, items[0]);
      assert UpsertAll(k, store, items, now) == (rest.0, first.1 + rest.1);
      assert Remarked(first.1 + rest.1) == Remarked(first.1) + Remarked(rest.1);
      if id0 in store && !k.marked(store[id0]) && Accepts(k, items[0]) {
        assert k.marked(first.0[id0]);
      }
    }
  }

  /** When every accepted item is already known and marked, the addition phase writes nothing. */
  lemma {:induction false} UpsertAllNoop<I(!new), E(!new)>(k: Kind<I, E>, store: map<Id, E>, items: seq<I>, now: Timestamp)
    requires Lawful(k)
    requires forall j :: 0 <= j < |items| && Accepts(k, items[j]) ==>
      k.idOf(items[j]) in store && k.marked(store[k.idOf(items[j])])
    ensures UpsertAll(k, store, items, now) == (store, [])
    decreases |items|
  {
    if |items| > 0 {
      assert k.create(items[0], now).Some? == Accepts(k, items[0]);
      assert Upsert(k, store, items[0], now) == (store, []);
      forall j | 0 <= j < |items[1..]| && Accepts(k, items[1..][j])
        ensures k.idOf(items[1..][j]) in store && k.marked(store[k.idOf(items[1..][j])])
      {
        assert items[1..][j] == items[j + 1];
      }
      UpsertAllNoop(k, store, items[1..], now);
      var first := Upsert(k, store, items[0], now);
      var rest := UpsertAll(k, first.0, items[1..], now);
      assert UpsertAll(k, store, items, now) == (rest.0, first.1 + rest.1);
      assert first.1 + rest.1 == [];
    }
  }

  /**
   * A new row comes from the first accepted item with its id in processing order; no earlier
   * item with that id was accepted.
   */
  lemma {:induction false} UpsertAllNewRows<I(!new), E(!new)>(k: Kind<I, E>, store: map<Id, E>, items: seq<I>, now: Timestamp)
    requires Lawful(k)
    ensures forall id :: id in UpsertAll(k, store, items, now).0 && id !in store ==>
      exists j :: FirstAccepted(k, items, id, j) && k.create(items[j], now) == Some(UpsertAll(k, store, items, now).0[id])
    decreases |items|
  {
    if |items| > 0 {
      var first := Upsert(k, store, items[0], now);
      var rest := UpsertAll(k, first.0, items[1..], now);
      var r := UpsertAll(k, store, items, now).0;
      var id0 := k.idOf(items[0]);
      UpsertAllNewRows(k, first.0, items[1..], now);
      UpsertAllRows(k, first.0, items[1..], now);
      assert k.create(items[0], now).Some? == Accepts(k, items[0]);
      forall id | id in r && id !in store
        ensures exists j :: FirstAccepted(k, items, id, j) && k.create(items[j], now) == Some(r[id])
      {
        if id in first.0 {
          assert id == id0 && Accepts(k, items[0]);
          assert k.marked(first.0[id]);
          assert FirstAccepted(k, items, id, 0);
        } else {
          var j :| FirstAccepted(k, items[1..], id, j) && k.create(items[1..][j], now) == Some(r[id]);
          assert items[1..][j] == items[j + 1];
          forall j' | 0 <= j' < j + 1 && k.idOf(items[j']) == id ensures !Accepts(k, items[j']) {
            if j' > 0 {
              assert items[j'] == items[1..][j' - 1];
            }
          }
          assert FirstAccepted(k, items, id, j + 1);
        }
      }
    }
  }

  /** `items[j]` is the first accepted item carrying `id`. */
  ghost predicate FirstAccepted<I(!new), E(!new)>(k: Kind<I, E>, items: seq<I>, id: Id, j: int)
  {
    && 0 <= j < |items|
    && k.idOf(items[j]) == id
    && Accepts(k, items[j])
    && forall j' :: 0 <= j' < j && k.idOf(items[j']) == id ==> !Accepts(k, items[j'])
  }

  // ---------------------------------------------------------------------------------------------
  // Properties of a whole pass

  /**
   * What a pass does to the rows: no row is deleted and the only new rows are the accepted remote
   * ids; a stale member is toggled off, a known non-member with an accepted id is toggled on, and
   * every other known row is left as it was. Afterwards the members are the old members still
   * listed remotely plus every accepted remote id.
   */
  lemma PassRows<I(!new), E(!new)>(k: Kind<I, E>, store: map<Id, E>, items: seq<I>, now: Timestamp)
    requires Lawful(k)
    ensures Pass(k, store, items, now).store.Keys == store.Keys + AcceptedIds(k, items)
    ensures forall id :: id in store ==>
      Pass(k, store, items, now).store[id]
        == (if (k.marked(store[id]) && id !in IdSet(k, items)) || (!k.marked(store[id]) && id in AcceptedIds(k, items))
            then k.toggle(store[id], now) else store[id])
    ensures MarkedIds(k, Pass(k, store, items, now).store)
         == (MarkedIds(k, store) * IdSet(k, items)) + AcceptedIds(k, items)
  {
    var remote := IdSet(k, items);
    var cleared := Unmark(k, store, remote, now);
    var r := Pass(k, store, items, now).store;
    UpsertAllRows(k, cleared, items, now);
    assert r == UpsertAll(k, cleared, items, now).0;
    forall id | id in r ensures id in MarkedIds(k, r) <==> id in (MarkedIds(k, store) * remote) + AcceptedIds(k, items) {
      if id in store {
        assert id in cleared;
        if id in AcceptedIds(k, items) {
          assert cleared[id] == store[id];
        }
      }
    }
  }

  /**
   * The writes of a pass: the removal step un-marks exactly the stale members; the addition
   * phase writes each id at most once, in processing order, inserts exactly the new rows and sets
   * the marker exactly on the known non-members whose id is accepted.
   */
  lemma PassWrites<I(!new), E(!new)>(k: Kind<I, E>, store: map<Id, E>, items: seq<I>, now: Timestamp)
    requires Lawful(k)
    ensures Pass(k, store, items, now).unmarked == MarkedIds(k, store) - IdSet(k, items)
    ensures Distinct(WriteIds(Pass(k, store, items, now).writes))
    ensures IsSubseq(WriteIds(Pass(k, store, items, now).writes), Ids(k, items))
    ensures Inserted(Pass(k, store, items, now).writes) == Pass(k, store, items, now).store.Keys - store.Keys
    ensures Remarked(Pass(k, store, items, now).writes)
         == set id | id in store && !k.marked(store[id]) && id in AcceptedIds(k, items)
  {
    var remote := IdSet(k, items);
    var cleared := Unmark(k, store, remote, now);
    UpsertAllWritesOnce(k, cleared, items, now);
    UpsertAllWritesInOrder(k, cleared, items, now);
    UpsertAllWriteSets(k, cleared, items, now);
    forall id | id in cleared && id in AcceptedIds(k, items) ensures cleared[id] == store[id] {
    }
  }

  /**
   * Idempotence: a second pass against the same remote list, at any later time, writes nothing
   * and leaves the store exactly as the first pass left it.
   */
  lemma PassIdempotent<I(!new), E(!new)>(k: Kind<I, E>, store: map<Id, E>, items: seq<I>, now: Timestamp, later: Timestamp)
    requires Lawful(k)
    ensures Pass(k, Pass(k, store, items, now).store, items, later) == Untouched(Pass(k, store, items, now).store)
  {
    var r := Pass(k, store, items, now).store;
    var remote := IdSet(k, items);
    PassRows(k, store, items, now);
    assert Stale(k, r, remote) == {};
    assert Unmark(k, r, remote, later) == r;
    forall j | 0 <= j < |items| && Accepts(k, items[j])
      ensures k.idOf(items[j]) in r && k.marked(r[k.idOf(items[j])])
    {
      assert k.idOf(items[j]) in AcceptedIds(k, items);
      assert k.idOf(items[j]) in MarkedIds(k, r);
    }
    UpsertAllNoop(k, r, items, later);
  }

  /** A member that is still listed is left exactly as it was by a pass. */
  lemma PassKeepsListed<I(!new), E(!new)>(k: Kind<I, E>, store: map<Id, E>, items: seq<I>, now: Timestamp)
    ensures forall id :: id in store && k.marked(store[id]) && id in IdSet(k, items) ==>
      id in Pass(k, store, items, now).store && Pass(k, store, items, now).store[id] == store[id]
  {
    UpsertAllKeepsMarked(k, Unmark(k, store, IdSet(k, items), now), items, now);
  }

  /**
   * A row a pass inserts comes from the first accepted item carrying its id, in processing order.
   */
  lemma PassNewRows<I(!new), E(!new)>(k: Kind<I, E>, store: map<Id, E>, items: seq<I>, now: Timestamp)
    requires Lawful(k)
    ensures forall id :: id in Pass(k, store, items, now).store && id !in store ==>
      exists j :: FirstAccepted(k, items, id, j) && k.create(items[j], now) == Some(Pass(k, store, items, now).store[id])
  {
    var cleared := Unmark(k, store, IdSet(k, items), now);
    UpsertAllNewRows(k, cleared, items, now);
  }

  /** A pass leaves each old row as it was or toggles it once; each new row is created from some item. */
  lemma PassRowShapes<I(!new), E(!new)>(k: Kind<I, E>, store: map<Id, E>, items: seq<I>, now: Timestamp)
    requires Lawful(k)
    ensures forall id :: id in store ==>
      (id in Pass(k, store, items, now).store
       && (Pass(k, store, items, now).store[id] == store[id] || Pass(k, store, items, now).store[id] == k.toggle(store[id], now)))
    ensures forall id :: id in Pass(k, store, items, now).store && id !in store ==>
      exists j :: 0 <= j < |items| && k.create(items[j], now) == Some(Pass(k, store, items, now).store[id])
  {
    var p := Pass(k, store, items, now).store;
    forall id | id in store ensures id in p && (p[id] == store[id] || p[id] == k.toggle(store[id], now)) {
      PassRows(k, store, items, now);
    }
    forall id | id in p && id !in store ensures exists j :: 0 <= j < |items| && k.create(items[j], now) == Some(p[id]) {
      PassNewRows(k, store, items, now);
    }
  }

  /** `items[j]` is the last item carrying `id`. */
  ghost predicate LastWith<I(!new), E(!new)>(k: Kind<I, E>, items: seq<I>, id: Id, j: int)
  {
    && 0 <= j < |items|
    && k.idOf(items[j]) == id
    && forall j' :: j < j' < |items| ==> k.idOf(items[j']) != id
  }

  /**
   * No item after the reversed list's first accepted one with an id is an accepted one with that
   * id; `r` is the reversal, given by its elements.
   */
  lemma NoLaterAccepted<I(!new), E(!new)>(k: Kind<I, E>, xs: seq<I>, r: seq<I>, id: Id, j: int)
    requires |r| == |xs| && forall i :: 0 <= i < |xs| ==> r[i] == xs[|xs| - 1 - i]
    requires FirstAccepted(k, r, id, j)
    ensures forall j' :: |xs| - 1 - j < j' < |xs| ==> !(k.idOf(xs[j']) == id && Accepts(k, xs[j']))
  {
    forall j' | |xs| - 1 - j < j' < |xs| ensures !(k.idOf(xs[j']) == id && Accepts(k, xs[j'])) {
      assert r[|xs| - 1 - j'] == xs[j'];
    }
  }

  /**
   * Processing a list reversed, the first item with an id, when every item with that id is
   * accepted, is the last item with that id in the original list.
   */
  lemma FirstAcceptedInReverse<I(!new), E(!new)>(k: Kind<I, E>, xs: seq<I>, id: Id, j: int)
    requires forall j' :: 0 <= j' < |xs| && k.idOf(xs[j']) == id ==> Accepts(k, xs[j'])
    requires FirstAccepted(k, Reverse(xs), id, j)
    ensures LastWith(k, xs, id, |xs| - 1 - j)
    ensures Reverse(xs)[j] == xs[|xs| - 1 - j]
  {
    ReverseAt(xs, |xs| - 1 - j);
    NoLaterAccepted(k, xs, Reverse(xs), id, j);
  }

  /** Reversing the remote list keeps its id set. */
  lemma ReverseIdSet<I(!new), E(!new)>(k: Kind<I, E>, xs: seq<I>)
    ensures IdSet(k, Reverse(xs)) == IdSet(k, xs)
  {
    var r := Reverse(xs);
    forall id | id in IdSet(k, xs) ensures id in IdSet(k, r) {
      var j :| 0 <= j < |xs| && k.idOf(xs[j]) == id;
      assert r[|xs| - 1 - j] == xs[j];
    }
    forall id | id in IdSet(k, r) ensures id in IdSet(k, xs) {
      var j :| 0 <= j < |r| && k.idOf(r[j]) == id;
      assert r[j] == xs[|xs| - 1 - j];
    }
  }

  /** Reversing the remote list keeps its accepted ids. */
  lemma ReverseAcceptedIds<I(!new), E(!new)>(k: Kind<I, E>, xs: seq<I>)
    ensures AcceptedIds(k, Reverse(xs)) == AcceptedIds(k, xs)
  {
    var r := Reverse(xs);
    forall id | id in AcceptedIds(k, xs) ensures id in AcceptedIds(k, r) {
      var j :| 0 <= j < |xs| && Accepts(k, xs[j]) && k.idOf(xs[j]) == id;
      assert r[|xs| - 1 - j] == xs[j];
    }
    forall id | id in AcceptedIds(k, r) ensures id in AcceptedIds(k, xs) {
      var j :| 0 <= j < |r| && Accepts(k, r[j]) && k.idOf(r[j]) == id;
      assert r[j] == xs[|xs| - 1 - j];
    }
  }

  /** Reversing the remote list keeps its id set and accepted ids, and reverses its id list. */
  lemma ReverseViews<I(!new), E(!new)>(k: Kind<I, E>, xs: seq<I>)
    ensures IdSet(k, Reverse(xs)) == IdSet(k, xs)
    ensures AcceptedIds(k, Reverse(xs)) == AcceptedIds(k, xs)
    ensures Ids(k, Reverse(xs)) == Reverse(Ids(k, xs))
  {
    ReverseIdSet(k, xs);
    ReverseAcceptedIds(k, xs);
  }

  /**
   * Over a reversed remote list, a new row comes from the LAST remote item carrying its id, when
   * whether an item is accepted depends on its id alone.
   */
  lemma ReversedPassNewRows<I(!new), E(!new)>(k: Kind<I, E>, store: map<Id, E>, xs: seq<I>, now: Timestamp)
    requires Lawful(k)
    requires forall a, b :: k.idOf(a) == k.idOf(b) ==> Accepts(k, a) == Accepts(k, b)
    ensures forall id :: id in Pass(k, store, Reverse(xs), now).store && id !in store ==>
      exists j :: LastWith(k, xs, id, j) && k.create(xs[j], now) == Some(Pass(k, store, Reverse(xs), now).store[id])
  {
    var r := Pass(k, store, Reverse(xs), now).store;
    PassNewRows(k, store, Reverse(xs), now);
    forall id | id in r && id !in store
      ensures exists j :: LastWith(k, xs, id, j) && k.create(xs[j], now) == Some(r[id])
    {
      var j :| FirstAccepted(k, Reverse(xs), id, j) && k.create(Reverse(xs)[j], now) == Some(r[id]);
      FirstAcceptedInReverse(k, xs, id, j);
    }
  }

  /**
   * A pass over the reversed remote list, stated against the remote list as received: rows are
   * kept and the new ones are the accepted ids, the members become the old members still listed
   * plus the accepted ids, the stale members are un-marked, and the writes touch each id at most
   * once, following the reversed id list.
   */
  lemma ReversedPass<I(!new), E(!new)>(k: Kind<I, E>, store: map<Id, E>, xs: seq<I>, now: Timestamp)
    requires Lawful(k)
    ensures Pass(k, store, Reverse(xs), now).store.Keys == store.Keys + AcceptedIds(k, xs)
    ensures MarkedIds(k, Pass(k, store, Reverse(xs), now).store)
         == (MarkedIds(k, store) * IdSet(k, xs)) + AcceptedIds(k, xs)
    ensures Pass(k, store, Reverse(xs), now).unmarked == MarkedIds(k, store) - IdSet(k, xs)
    ensures Distinct(WriteIds(Pass(k, store, Reverse(xs), now).writes))
    ensures IsSubseq(WriteIds(Pass(k, store, Reverse(xs), now).writes), Reverse(Ids(k, xs)))
  {
    ReverseViews(k, xs);
    PassRows(k, store, Reverse(xs), now);
    PassWrites(k, store, Reverse(xs), now);
  }
}

=== FILE: seqs.dfy ===
/** Sequence helpers: Kotlin's `reversed()` and the subsequence order used to talk about write logs. */
module Seqs {

  /** Kotlin's `List.reversed()`. */
  function Reverse<T>(s: seq<T>): (r: seq<T>)
    ensures |r| == |s|
    ensures forall i :: 0 <= i < |s| ==> r[i] == s[|s| - 1 - i]
  {
    seq(|s|, i requires 0 <= i < |s| => s[|s| - 1 - i])
  }

  /** Element `i` of a list is element `|s| - 1 - i` of its reversal. */
  lemma ReverseAt<T>(s: seq<T>, i: int)
    requires 0 <= i < |s|
    ensures Reverse(s)[|s| - 1 - i] == s[i]
  {
  }

  /** Reversal keeps exactly the same elements. */
  lemma ReverseElements<T>(s: seq<T>)
    ensures forall x :: x in Reverse(s) <==> x in s
  {
    var r := Reverse(s);
    forall x | x in s ensures x in r {
      var i :| 0 <= i < |s| && s[i] == x;
      assert r[|s| - 1 - i] == x;
    }
  }

  /** Reversing twice gives the list back. */
  lemma ReverseTwice<T>(s: seq<T>)
    ensures Reverse(Reverse(s)) == s
  {
  }

  /** `a` can be obtained from `b` by dropping elements, keeping the order of the rest. */
  predicate IsSubseq<T(==)>(a: seq<T>, b: seq<T>)
    decreases |b|
  {
    if |a| == 0 then true
    else if |b| == 0 then false
    else if a[0] == b[0] then IsSubseq(a[1..], b[1..])
    else IsSubseq(a, b[1..])
  }

  /** A subsequence stays one when an element is put in front of the longer sequence. */
  lemma {:induction false} SubseqCons<T>(a: seq<T>, b: seq<T>, x: T)
    requires IsSubseq(a, b)
    ensures IsSubseq(a, [x] + b)
    decreases |b|, 1
  {
    if |a| != 0 && a[0] == x {
      SubseqTail(a, b);
      assert ([x] + b)[1..] == b;
    } else {
      assert ([x] + b)[1..] == b;
    }
  }

  /** Dropping the head of a subsequence keeps it a subsequence. */
  lemma {:induction false} SubseqTail<T>(a: seq<T>, b: seq<T>)
    requires |a| > 0 && IsSubseq(a, b)
    ensures IsSubseq(a[1..], b)
    decreases |b|, 0
  {
    if a[0] == b[0] {
      if |a[1..]| > 0 {
        SubseqCons(a[1..], b[1..], b[0]);
        assert [b[0]] + b[1..] == b;
      }
    } else {
      SubseqTail(a, b[1..]);
      if |a[1..]| > 0 {
        SubseqCons(a[1..], b[1..], b[0]);
        assert [b[0]] + b[1..] == b;
      }
    }
  }

  /** No element occurs twice. */
  predicate Distinct<T(==)>(s: seq<T>)
  {
    forall i, j :: 0 <= i < j < |s| ==> s[i] != s[j]
  }
}

=== FILE: songcount.dfy ===
/**
 * `remoteSongCount` of a new playlist row: the first run of digits in the remote song-count text
 * (`Regex("\d+").find(it)?.value?.toIntOrNull()`), or null. The model takes `\d` to match the
 * ASCII digits `0`-`9` only; on Android's ICU-based engine it may also match other Unicode decimal
 * digits, which `toIntOrNull` reads too, and those are not modelled. `find` returns the leftmost
 * match and `+` is greedy, so the match is the first maximal digit run; `toIntOrNull` answers
 * null when that run does not fit a 32-bit `Int`.
 */
module SongCount {
  import opened Wrappers

  /** Kotlin's `Int.MAX_VALUE`. */
  const IntMax: int := 2147483647

  predicate IsDigit(c: char)
  {
    '0' <= c <= '9'
  }

  predicate AllDigits(d: string)
  {
    forall k :: 0 <= k < |d| ==> IsDigit(d[k])
  }

  /** The value of a decimal numeral, most significant digit first (leading zeros allowed). */
  function Value(d: string): nat
    requires AllDigits(d)
  {
    if |d| == 0 then 0 else 10 * Value(d[..|d| - 1]) + ((d[|d| - 1] as int) - ('0' as int))
  }

  /** `t[i..j]` is the leftmost maximal run of digits of `t`. */
  ghost predicate IsFirstRun(t: string, i: int, j: int)
  {
    && 0 <= i < j <= |t|
    && (forall k :: 0 <= k < i ==> !IsDigit(t[k]))
    && (forall k :: i <= k < j ==> IsDigit(t[k]))
    && (j == |t| || !IsDigit(t[j]))
  }

  /** A text has at most one first run. */
  lemma FirstRunUnique(t: string, i: int, j: int, i': int, j': int)
    requires IsFirstRun(t, i, j) && IsFirstRun(t, i', j')
    ensures i == i' && j == j'
  {
    assert IsDigit(t[i]) && IsDigit(t[i']);
    if j < |t| {
      assert !IsDigit(t[j]);
    }
    if j' < |t| {
      assert !IsDigit(t[j']);
    }
  }

  /** The index of the first digit at or after `from`, or `|t|` if there is none. */
  function FirstDigit(t: string, from: nat): (i: nat)
    requires from <= |t|
    ensures from <= i <= |t|
    ensures i < |t| ==> IsDigit(t[i])
    ensures forall k :: from <= k < i ==> !IsDigit(t[k])
    decreases |t| - from
  {
    if from == |t| || IsDigit(t[from]) then from else FirstDigit(t, from + 1)
  }

  /** The end of the run of digits that starts at `i`. */
  function RunEnd(t: string, i: nat): (j: nat)
    requires i <= |t|
    ensures i <= j <= |t|
    ensures forall k :: i <= k < j ==> IsDigit(t[k])
    ensures j == |t| || !IsDigit(t[j])
    decreases |t| - i
  {
    if i == |t| || !IsDigit(t[i]) then i else RunEnd(t, i + 1)
  }

  /** `Regex("\d+").find(t)?.value`: the first maximal digit run, or `None` when `t` has no digit. */
  function FindDigits(t: string): (r: Option<string>)
    ensures r.None? <==> forall k :: 0 <= k < |t| ==> !IsDigit(t[k])
    ensures r.Some? ==> exists i, j :: IsFirstRun(t, i, j) && r.value == t[i..j]
  {
    var i := FirstDigit(t, 0);
    if i == |t| then None
    else
      var j := RunEnd(t, i);
      assert IsFirstRun(t, i, j);
      Some(t[i..j])
  }

  /** `String.toIntOrNull` on a digit string: its value, or `None` when it overflows an `Int`. */
  function ToIntOrNull(d: string): (r: Option<int>)
    requires AllDigits(d)
    ensures r.Some? ==> 0 <= r.value <= IntMax
  {
    if Value(d) <= IntMax then Some(Value(d)) else None
  }

  /**
   * The remote song count of a playlist: present exactly when the text is present, holds a digit,
   * and its first maximal digit run fits an `Int`; it is then that run's value.
   */
  function RemoteSongCount(text: Option<string>): (r: Option<int>)
    ensures text.None? ==> r.None?
    ensures r.Some? <==> text.Some? && exists i, j :: IsFirstRun(text.value, i, j) && Value(text.value[i..j]) <= IntMax
    ensures r.Some? ==> exists i, j :: IsFirstRun(text.value, i, j) && r.value == Value(text.value[i..j])
  {
    match text
    case None => None
    case Some(t) =>
      match FindDigits(t)
      case None =>
        forall i, j | 0 <= i < j <= |t| ensures !IsFirstRun(t, i, j) {
          assert !IsDigit(t[i]);
        }
        None
      case Some(d) =>
        ghost var i, j :| IsFirstRun(t, i, j) && d == t[i..j];
        assert forall i', j' :: IsFirstRun(t, i', j') ==> i' == i && j' == j by {
          forall i', j' | IsFirstRun(t, i', j') ensures i' == i && j' == j {
            FirstRunUnique(t, i, j, i', j');
          }
        }
        ToIntOrNull(d)
  }

  // ---------------------------------------------------------------------------------------------
  // Round trip with the decimal rendering of a count

  function DigitChar(n: nat): (c: char)
    requires n < 10
    ensures IsDigit(c) && (c as int) - ('0' as int) == n
  {
    ('0' as int + n) as char
  }

  /** The decimal rendering of a count, without leading zeros. */
  function Render(n: nat): (s: string)
    ensures |s| > 0 && AllDigits(s)
  {
    if n < 10 then [DigitChar(n)] else Render(n / 10) + [DigitChar(n % 10)]
  }

  /** Reading a rendered count gives the count back. */
  lemma {:induction false} ValueOfRender(n: nat)
    ensures Value(Render(n)) == n
  {
    if n >= 10 {
      ValueOfRender(n / 10);
      var s := Render(n);
      assert s[..|s| - 1] == Render(n / 10);
    }
  }

  /**
   * A song-count text such as "25 songs" reads back the count it shows: a count that fits an
   * `Int`, preceded by text with no digit and followed by text that does not start with one.
   */
  lemma {:induction false} RemoteSongCountReadsRenderedCount(prefix: string, n: nat, suffix: string)
    requires forall k :: 0 <= k < |prefix| ==> !IsDigit(prefix[k])
    requires |suffix| == 0 || !IsDigit(suffix[0])
    requires n <= IntMax
    ensures RemoteSongCount(Some(prefix + Render(n) + suffix)) == Some(n)
  {
    var t := prefix + Render(n) + suffix;
    var i, j := |prefix|, |prefix| + |Render(n)|;
    assert t[i..j] == Render(n);
    assert IsFirstRun(t, i, j);
    ValueOfRender(n);
    var d := FindDigits(t).value;
    var i', j' :| IsFirstRun(t, i', j') && d == t[i'..j'];
    FirstRunUnique(t, i, j, i', j');
  }

  /** A grouping comma ends the digit run: "1,234 songs" reads as 1. */
  lemma GroupedCountReadsLeadingGroup()
    ensures RemoteSongCount(Some("1,234 songs")) == Some(1)
  {
    assert Render(1) == "1";
    assert "" + Render(1) + ",234 songs" == "1,234 songs";
    RemoteSongCountReadsRenderedCount("", 1, ",234 songs");
  }
}

=== FILE: sync.dfy ===
/**
 * `SyncUtils` itself: the library with its four tables, the five guard flags, the remote
 * endpoints, and the five guarded passes that `syncAll` launches.
 */
module Sync {
  import opened Wrappers
  import opened Types
  import opened Items
  import opened Entities
  import opened Reconcile
  import opened Collections
  import opened Playlists
  import opened Guard

  /** The playlist holding the liked songs. */
  const LikedMusic: Id := "LM"
  /** The library sections the other passes read. */
  const LibrarySongsSection: Id := "FEmusic_liked_videos"
  const LikedAlbumsSection: Id := "FEmusic_liked_albums"
  const ArtistsSection: Id := "FEmusic_library_corpus_track_artists"
  const SavedPlaylistsSection: Id := "FEmusic_liked_playlists"

  /** The local tables the passes reconcile. */
  datatype Library = Library(
    songs: map<Id, Song>,
    albums: map<Id, Album>,
    artists: map<Id, Artist>,
    playlists: PlaylistState)

  /** The five `isSyncing…` flags. */
  datatype Flags = Flags(likedSongs: Flag, librarySongs: Flag, likedAlbums: Flag, artists: Flag, savedPlaylists: Flag)

  const AllIdle := Flags(Idle, Idle, Idle, Idle, Idle)

  /** The remote endpoints, as their answers: a playlist's songs, a library section, an album page. */
  datatype Remote = Remote(
    playlist: Id -> Result<seq<SongItem>>,
    library: Id -> Result<seq<LibraryItem>>,
    album: Id -> Option<AlbumDetail>)

  /** What a call leaves behind. */
  datatype Synced = Synced(flags: Flags, library: Library)

  /**
   * `syncLikedSongs`. Only the songs table can change, no song row disappears, and after a
   * successful fetch the liked songs are exactly those of the "LM" playlist; a failed fetch
   * changes nothing. A call that finds its flag set does nothing; the flags end as they began.
   */
  function SyncLikedSongs(flags: Flags, lib: Library, remote: Remote, now: Timestamp): (r: Synced)
    ensures r.flags == flags
    ensures flags.likedSongs == Syncing ==> r.library == lib
    ensures r.library == lib.(songs := r.library.songs)
    ensures lib.songs.Keys <= r.library.songs.Keys
    ensures flags.likedSongs == Idle && remote.playlist(LikedMusic).Success? ==>
      LikedIds(r.library.songs) == SongIds(remote.playlist(LikedMusic).value)
    ensures remote.playlist(LikedMusic).Failure? ==> r.library == lib
  {
    var o := Guarded(flags.likedSongs, lib, (f: Flag, l: Library) =>
      Returned(l.(songs := LikedSongsPass(l.songs, remote.playlist(LikedMusic), now).store)));
    Synced(flags.(likedSongs := o.flag), o.state)
  }

  /**
   * `syncLibrarySongs`. Only the songs table can change, no song row disappears, and the songs in
   * the library are exactly those of the section, none when its fetch fails. `exit` is what
   * `toggleLibrary` does to the like of a song it takes out of the library.
   */
  function SyncLibrarySongs(flags: Flags, lib: Library, remote: Remote, exit: LibraryExit, now: Timestamp): (r: Synced)
    ensures r.flags == flags
    ensures flags.librarySongs == Syncing ==> r.library == lib
    ensures r.library == lib.(songs := r.library.songs)
    ensures lib.songs.Keys <= r.library.songs.Keys
    ensures flags.librarySongs == Idle ==>
      LibraryIds(r.library.songs) == SongIds(RemoteSongs(remote.library(LibrarySongsSection)))
  {
    var o := Guarded(flags.librarySongs, lib, (f: Flag, l: Library) =>
      Returned(l.(songs := LibrarySongsPass(l.songs, remote.library(LibrarySongsSection), exit, now).store)));
    Synced(flags.(librarySongs := o.flag), o.state)
  }

  /**
   * `syncLikedAlbums`. Only the albums table can change, no album row disappears, and the liked
   * albums are the old ones still listed plus every listed album whose page could be read.
   */
  function SyncLikedAlbums(flags: Flags, lib: Library, remote: Remote, now: Timestamp): (r: Synced)
    ensures r.flags == flags
    ensures flags.likedAlbums == Syncing ==> r.library == lib
    ensures r.library == lib.(albums := r.library.albums)
    ensures lib.albums.Keys <= r.library.albums.Keys
    ensures flags.likedAlbums == Idle ==>
      var listed := RemoteAlbums(remote.library(LikedAlbumsSection));
      LikedAlbumIds(r.library.albums) == (LikedAlbumIds(lib.albums) * AlbumIds(listed)) + DetailedIds(listed, remote.album)
  {
    var o := Guarded(flags.likedAlbums, lib, (f: Flag, l: Library) =>
      Returned(l.(albums := LikedAlbumsPass(l.albums, remote.library(LikedAlbumsSection), remote.album, now).store)));
    Synced(flags.(likedAlbums := o.flag), o.state)
  }

  /**
   * `syncArtistsSubscriptions`. Only the artists table can change, no artist row disappears, and
   * the subscribed artists are exactly those of the section, none when its fetch fails.
   */
  function SyncArtistsSubscriptions(flags: Flags, lib: Library, remote: Remote, now: Timestamp): (r: Synced)
    ensures r.flags == flags
    ensures flags.artists == Syncing ==> r.library == lib
    ensures r.library == lib.(artists := r.library.artists)
    ensures lib.artists.Keys <= r.library.artists.Keys
    ensures flags.artists == Idle ==>
      SubscribedIds(r.library.artists) == ArtistIds(RemoteArtists(remote.library(ArtistsSection)))
  {
    var o := Guarded(flags.artists, lib, (f: Flag, l: Library) =>
      Returned(l.(artists := ArtistsPass(l.artists, remote.library(ArtistsSection), now).store)));
    Synced(flags.(artists := o.flag), o.state)
  }

  /**
   * `syncSavedPlaylists`. Only the playlist and membership tables can change, and a failed fetch
   * of the section changes nothing.
   */
  function SyncSavedPlaylists(flags: Flags, lib: Library, remote: Remote, now: Timestamp): (r: Synced)
    ensures r.flags == flags
    ensures flags.savedPlaylists == Syncing ==> r.library == lib
    ensures r.library == lib.(playlists := r.library.playlists)
    ensures remote.library(SavedPlaylistsSection).Failure? ==> r.library == lib
  {
    var o := Guarded(flags.savedPlaylists, lib, (f: Flag, l: Library) =>
      Returned(l.(playlists := SavedPlaylistsPass(l.playlists, remote.library(SavedPlaylistsSection), remote.playlist, now).state)));
    Synced(flags.(savedPlaylists := o.flag), o.state)
  }

  /** `syncAll`: the five passes, one after the other in launch order. */
  function SyncAll(flags: Flags, lib: Library, remote: Remote, exit: LibraryExit, now: Timestamp): (r: Synced)
    ensures r.flags == flags
    ensures lib.songs.Keys <= r.library.songs.Keys
    ensures lib.albums.Keys <= r.library.albums.Keys
    ensures lib.artists.Keys <= r.library.artists.Keys
  {
    var s1 := SyncLikedSongs(flags, lib, remote, now);
    var s2 := SyncLibrarySongs(s1.flags, s1.library, remote, exit, now);
    var s3 := SyncLikedAlbums(s2.flags, s2.library, remote, now);
    var s4 := SyncArtistsSubscriptions(s3.flags, s3.library, remote, now);
    SyncSavedPlaylists(s4.flags, s4.library, remote, now)
  }

  /**
   * The liked songs after the library-songs pass: the same set when `toggleLibrary` keeps likes;
   * when it clears them, the songs the pass takes out of the library drop out of the liked set.
   */
  lemma LibrarySongsLikedIds(songs: map<Id, Song>, fetched: Result<seq<LibraryItem>>, exit: LibraryExit, now: Timestamp)
    ensures LikedIds(LibrarySongsPass(songs, fetched, exit, now).store)
         == LikedIds(songs) - (if exit == ClearsLike then LibraryIds(songs) - SongIds(RemoteSongs(fetched)) else {})
  {
    LibrarySongsLikes(songs, fetched, exit, now);
  }

  /**
   * A `syncAll` from clear flags, with the "LM" playlist and the saved-playlists section both
   * fetched, in launch order: the library, albums, artists and saved playlists agree with the
   * remote; the liked songs are those of "LM", less the songs the library pass took out of the
   * library when `toggleLibrary` clears likes.
   */
  lemma SyncAllConverges(lib: Library, remote: Remote, exit: LibraryExit, now: Timestamp)
    requires Valid(lib.playlists.store)
    requires remote.playlist(LikedMusic).Success?
    requires remote.library(SavedPlaylistsSection).Success?
    ensures var r := SyncAll(AllIdle, lib, remote, exit, now).library;
      var albums := RemoteAlbums(remote.library(LikedAlbumsSection));
      var inLibrary := SongIds(RemoteSongs(remote.library(LibrarySongsSection)));
      && LikedIds(r.songs) == SongIds(remote.playlist(LikedMusic).value)
                              - (if exit == ClearsLike then LibraryIds(lib.songs) - inLibrary else {})
      && LibraryIds(r.songs) == inLibrary
      && LikedAlbumIds(r.albums) == (LikedAlbumIds(lib.albums) * AlbumIds(albums)) + DetailedIds(albums, remote.album)
      && SubscribedIds(r.artists) == ArtistIds(RemoteArtists(remote.library(ArtistsSection)))
      && SavedBrowseIds(r.playlists.store.rows) == ListedIds(remote.library(SavedPlaylistsSection).value)
      && Valid(r.playlists.store)
  {
    var s1 := SyncLikedSongs(AllIdle, lib, remote, now);
    var s2 := SyncLibrarySongs(s1.flags, s1.library, remote, exit, now);
    var s3 := SyncLikedAlbums(s2.flags, s2.library, remote, now);
    var s4 := SyncArtistsSubscriptions(s3.flags, s3.library, remote, now);
    var r := SyncSavedPlaylists(s4.flags, s4.library, remote, now);
    assert r == SyncAll(AllIdle, lib, remote, exit, now);
    assert s1.library.songs == LikedSongsPass(lib.songs, remote.playlist(LikedMusic), now).store;
    LikedSongsKeepLibrary(lib.songs, remote.playlist(LikedMusic), now);
    assert s2.library.songs == LibrarySongsPass(s1.library.songs, remote.library(LibrarySongsSection), exit, now).store;
    LibrarySongsLikedIds(s1.library.songs, remote.library(LibrarySongsSection), exit, now);
    var page := remote.library(SavedPlaylistsSection).value;
    assert r.library.playlists == SavedPlaylistsPass(lib.playlists, Success(page), remote.playlist, now).state;
    SavedPlaylistsConverge(lib.playlists, page, remote.playlist, now);
    SavedPlaylistsKeepRows(lib.playlists, page, remote.playlist, now);
  }

  /** While every flag is set, `syncAll` changes nothing. */
  lemma SyncAllWhileSyncing(lib: Library, remote: Remote, exit: LibraryExit, now: Timestamp)
    ensures SyncAll(Flags(Syncing, Syncing, Syncing, Syncing, Syncing), lib, remote, exit, now)
         == Synced(Flags(Syncing, Syncing, Syncing, Syncing, Syncing), lib)
  {
  }
}

=== FILE: types.dfy ===
/** Identifiers and the clock, shared by the remote items and the local rows. */
module Types {

  /** Remote-stable identifiers (song, album, artist and playlist browse ids) are strings. */
  type Id = string

  /** `LocalDateTime.now()` becomes an opaque parameter; only set-versus-null carries meaning. */
  type Timestamp = nat
}

=== FILE: wrappers.dfy ===
/** Optional values and the outcome of a remote call. */
module Wrappers {

  /** A nullable value: `None` stands for Kotlin's `null`. */
  datatype Option<+T> = None | Some(value: T)

  /** The outcome of a remote call, as Kotlin's `Result`: either a payload or a failure. */
  datatype Result<+T> = Success(value: T) | Failure
}
